=== FILE: README.md ===
# Reply normaliser of the AI-Agent multiple-choice solver

The solver sends a riddle, a number-sequence puzzle or another question to a
local language model. It then has to turn the model's free-text reply into a
bounded answer `(option, reasoning, confidence)`:

- `option` is an integer in [1, 5];
- `reasoning` is a non-empty list of non-empty steps;
- `confidence` is a number in [0, 1].

This project models that normaliser, `PromptRunner._extract`, in its two diverged versions:

- **Balanced scan** (`AI-Agent-main/final/prompt.py`). `_slice_payload` cuts the
  first bracket-balanced `[...]` block out of the trimmed reply. `_parse_triplet`
  tries `json.loads` and then `ast.literal_eval`. It accepts a list or tuple of
  three, or a dict through `_extract_from_dict`. The fields are then clamped
  (`_clamp_int`, `_clamp_float`) and cleaned (`_clean_reasoning`). When no triple is
  found, a fixed fallback answer is returned.
- **Regex** (`final/prompt.py`). The candidate is the first match of
  `\[[^\]]*\]`, or else the first line of the reply. Only a list or tuple of three
  is accepted. Its `_clean_reasoning`, `_clamp_int` and `_clamp_float`
  (final/prompt.py:60-87) are identical to lines 74-101 of the balanced-scan file,
  so one model serves both.

The project also models two small pure helpers:

- the topic router `route_topic` and the edge map it feeds (`AI-Agent-main/final/graph.py`);
- the row-to-state constructor `make_agent_state` (`final/state.py`).

Modules, one per file:

| module | file | what it holds |
|---|---|---|
| `Wrappers` | `wrappers.dfy` | `Option` and `Result` |
| `Seqs` | `seqs.dfy` | generic sequence facts used by the proofs |
| `PyText` | `pytext.dfy` | Python's `str.strip`, `strip(chars)`, `splitlines`, `find`, `lower`, `in` |
| `PyInt` | `pyint.dfy` | `str(n)` for an `int`, and `int(text)` in base 10 |
| `PyValue` | `pyvalue.dfy` | the decoded `Value`s, `str()`, truthiness, `dict.get`, `or`; the `Python` record of foreign runtime functions |
| `Coerce` | `coerce.dfy` | `_clamp_int`, `_clamp_float` |
| `Reasoning` | `reasoning.dfy` | `_clean_reasoning` |
| `Slicing` | `slicing.dfy` | `_slice_payload`, as a function and as the depth-counter loop |
| `RegexSlicing` | `regex_slicing.dfy` | the regex candidate, and how it relates to the balanced slice |
| `Triplet` | `triplet.dfy` | the answer triple, the fallback, field normalisation |
| `State` | `state.dfy` | `AgentState`, `make_agent_state` |
| `Prompt` | `prompt.dfy` | the balanced-scan `_extract_from_dict`, `_parse_triplet`, `_extract`, `__call__` |
| `DictReplies` | `dict_reply.dfy` | dict replies that hold a `[`, and the corrected `_extract` that reads a whole-dict reply first |
| `RegexPrompt` | `regex_prompt.dfy` | the regex `_parse_triplet` and `_extract` |
| `Router` | `router.dfy` | `route_topic` and the edge map |

Foreign code is a parameter. The `Python` record carries four functions:

- `jsonLoads` and `literalEval`: the two loaders, giving `None` where they raise;
- `floatOfText`: `float()` of a string;
- `repr`: the text of floats, lists, tuples and dicts.

Every statement about the normaliser holds for every choice of these functions.

The reply text is an input. The language-model call that produces it is not modelled.

## Dict replies and blank replies

In the balanced-scan version a reply with no `[` is parsed whole: `_slice_payload`
returns such a snippet unchanged (AI-Agent-main/final/prompt.py:126-128), and the
loaders then read the whole snippet (`Prompt.NoBracketWholeSnippet`). A JSON dict
reply with no `[` anywhere in it is therefore read through `_extract_from_dict`. A
dict reply that holds a `[` (a list of reasoning steps, say) is cut to its first
balanced `[...]` block instead, and its keys are never read (Findings, row 3).

A blank reply gets `(5, ["Unable to parse model response."], 0.0)` in the
balanced-scan version (`Prompt.EmptyReply`). The regex version raises on it
(Findings, row 1).

## Model

| member | source | states |
|---|---|---|
| `PyText.StripBy` | AI-Agent-main/final/prompt.py:82 | `s.strip(chars)`: the result is the infix of `s` left after removing the maximal runs of `chars` at both ends; neither end of the result is in `chars` |
| `PyText.Strip` | AI-Agent-main/final/prompt.py:34 | `s.strip()` leaves no Python whitespace character at either end |
| `PyText.StripIdempotent` | AI-Agent-main/final/prompt.py:78 | stripping an already stripped string changes nothing |
| `PyText.Find` | AI-Agent-main/final/prompt.py:126 | `find` gives -1 exactly when the character is absent, otherwise the index of its first occurrence |
| `PyText.SplitLines` | AI-Agent-main/final/prompt.py:81 | `splitlines` gives no lines exactly for the empty text, and no line contains a line boundary |
| `PyText.SplitLinesKeepsText` | AI-Agent-main/final/prompt.py:81 | the lines, concatenated, are the text with its line-boundary characters (`\r\n` counted once) removed: nothing else is lost |
| `PyText.Boundaries` | AI-Agent-main/final/prompt.py:81 | one boundary per line of `splitlines`: each is `\r\n` or a single boundary character, and only the last may be empty |
| `PyText.LastBoundary` | AI-Agent-main/final/prompt.py:81 | the last boundary is empty exactly when the text does not end with a break character |
| `PyText.SplitLinesJoin` | AI-Agent-main/final/prompt.py:81 | each line followed by the boundary that ended it gives the text back: `splitlines` breaks exactly at the boundaries |
| `PyText.IsSpace` | AI-Agent-main/final/prompt.py:34 | the characters `strip()` removes, Python's `isspace` set: ASCII whitespace, U+001C to U+001F, U+0085, U+00A0, U+1680, U+2000 to U+200A, U+2028, U+2029, U+202F, U+205F, U+3000 |
| `PyText.IsLineBreak` | AI-Agent-main/final/prompt.py:81 | the boundaries `splitlines` breaks at: `\n`, `\r`, `\v`, `\f`, U+001C to U+001E, U+0085, U+2028, U+2029 |
| `PyText.StripKeeps` | AI-Agent-main/final/prompt.py:89 | a character that is not whitespace survives `strip`, wherever it stood |
| `PyText.Lower` | AI-Agent-main/final/graph.py:32 | `lower()` keeps the length, turns each ASCII capital into its small letter (32 code points on), leaves no capital, and changes no other character |
| `PyText.Contains` | AI-Agent-main/final/graph.py:33-35 | `w in s`: `w` occurs at some position of `s` |
| `PyInt.Decimal` | AI-Agent-main/final/prompt.py:89 | `str(n)` is an optional `-` followed by decimal digits, ending in a digit |
| `PyInt.IntOfText` | AI-Agent-main/final/prompt.py:89 | `int(text)` succeeds only on an optional leading sign, then digits and underscores with at least one digit |
| `PyInt.DecimalRoundTrip` | AI-Agent-main/final/prompt.py:89 | `int(str(n)) == n` for every integer |
| `PyInt.RejectsForeignCharacter` | AI-Agent-main/final/prompt.py:88-91 | text holding a character other than a digit, an underscore or a leading sign makes `int()` raise |
| `PyValue.Str` | AI-Agent-main/final/prompt.py:78-80 | `str()` of a string is the string; of an int, text that `int()` reads back as that int; of `None`, `True`, `False`, a capitalised name ending in `e`; floats, lists, tuples and dicts print through `repr` |
| `PyValue.Truthy` | AI-Agent-main/final/prompt.py:70-71 | Python's truth value: `None`, `False`, `0`, `0.0` and the empty string, list, tuple and dict are false, every other value true |
| `PyValue.Get` | AI-Agent-main/final/prompt.py:63-65 | `d.get(key)` is the entry when the key is present and `None` otherwise |
| `PyValue.Or` | AI-Agent-main/final/prompt.py:70-71 | `a or b` is `a` when `a` is truthy, else `b` |
| `Coerce.Clip` | AI-Agent-main/final/prompt.py:92 | `max(low, min(high, x))` lies in the bounds, is `x` inside them, `low` below and `high` above |
| `Coerce.ClipReal` | AI-Agent-main/final/prompt.py:101 | the same clipping on (finite) reals |
| `Coerce.FloatOf` | AI-Agent-main/final/prompt.py:98 | `float()` keeps a float, widens an int, and raises on `None`, lists, tuples and dicts |
| `Coerce.IntOf` | AI-Agent-main/final/prompt.py:89 | `int(str(value).strip())`: an int gives itself back; `None`, `True` and `False` raise |
| `Coerce.ClampInt` | AI-Agent-main/final/prompt.py:85-92 | the option always lies in [low, high]; it is the clipped value of `int(str(v).strip())` when that succeeds, the clipped default when it raises |
| `Coerce.ClampFloat` | AI-Agent-main/final/prompt.py:94-101 | the confidence always lies in [low, high]; it is the clipped `float(v)` when that succeeds, the clipped default when it raises |
| `Coerce.ClampIntOfInt` | AI-Agent-main/final/prompt.py:86-92 | an integer option `n` yields `max(low, min(high, n))` |
| `Coerce.ClampIntOfText` | AI-Agent-main/final/prompt.py:88-92 | a string whose stripped form is the decimal text of `n` yields the clipped `n` |
| `Coerce.IntOfForeign` | AI-Agent-main/final/prompt.py:88-91 | a value whose stripped text holds `.`, `N`, `T` or `F` is not an integer |
| `Coerce.ClampIntFallsBack` | AI-Agent-main/final/prompt.py:88-92 | `None`, `True`, `False` and anything that prints with a `.` (such as `2.0`) yield the clipped default |
| `Coerce.ClampIntOfFloat` | AI-Agent-main/final/prompt.py:88-92 | when `repr` prints floats as Python does (with `.`, an exponent, `inf` or `nan`), a float option always yields the clipped default |
| `Coerce.ClampIntOfContainer` | AI-Agent-main/final/prompt.py:88-92 | when `repr` prints lists, tuples and dicts as Python does (opening with `[`, `(` or `{`), such an option always yields the clipped default |
| `Coerce.ClampFloatOfFloat` | AI-Agent-main/final/prompt.py:97-101 | a float confidence is kept inside the bounds and replaced by the nearer bound outside them |
| `Coerce.ClampFloatOfNumber` | AI-Agent-main/final/prompt.py:97-101 | an int confidence is clipped as `float(n)`, a bool as 0.0 or 1.0 |
| `Coerce.ClampFloatFallsBack` | AI-Agent-main/final/prompt.py:97-101 | `None`, lists, tuples and dicts yield the clipped default |
| `Reasoning.ItemSteps` | AI-Agent-main/final/prompt.py:78 | the kept items are no more than the items, each non-empty with no whitespace at either end |
| `Reasoning.LineSteps` | AI-Agent-main/final/prompt.py:82 | the kept lines are no more than the lines, each non-empty with no ` `, `-`, `*` or tab at either end |
| `Reasoning.TextSteps` | AI-Agent-main/final/prompt.py:80-82 | the steps of a scalar are non-empty single lines with no ` `, `-`, `*` or tab at either end; a blank text gives none |
| `Reasoning.CleanReasoning` | AI-Agent-main/final/prompt.py:74-83 | the result is never empty and has no empty step; the steps of a list or tuple are whitespace-trimmed, those of a scalar bullet-trimmed |
| `Reasoning.ItemStepsOne` | AI-Agent-main/final/prompt.py:78 | one item gives `str(item).strip()` when that is non-empty and nothing otherwise; with `ItemStepsAppend` this fixes the steps of every list |
| `Reasoning.ItemStepsAppend` | AI-Agent-main/final/prompt.py:78 | the item filter keeps order: the steps of `a + b` are the steps of `a`, then those of `b` |
| `Reasoning.LineStepsAppend` | AI-Agent-main/final/prompt.py:82 | the line filter keeps order in the same way |
| `Reasoning.ListReasoning` | AI-Agent-main/final/prompt.py:77-83 | a list or tuple yields its kept items when any survive, otherwise `["Reasoning not provided."]` |
| `Reasoning.ScalarReasoning` | AI-Agent-main/final/prompt.py:79-83 | a scalar yields the kept lines of its stripped text when any survive, otherwise `["Reasoning not provided."]` |
| `Reasoning.ScalarReasoningLines` | AI-Agent-main/final/prompt.py:79-83 | every step of a scalar reasoning is a single line: no step contains a line boundary |
| `Reasoning.CleanStringsKept` | AI-Agent-main/final/prompt.py:78 | a list of non-empty, already stripped strings is kept verbatim, in order |
| `Reasoning.CleanStringsReasoning` | AI-Agent-main/final/prompt.py:77-83 | such a list is the reasoning itself; the empty list gives the placeholder |
| `Reasoning.OneLineText` | AI-Agent-main/final/prompt.py:79-83 | a one-line scalar with no surrounding whitespace or bullet characters is the single step |
| `Reasoning.RecleanChangesSteps` | AI-Agent-main/final/prompt.py:77-83 | cleaning is not a fixpoint: `"x\u001f-"` gives the step `"x\u001f"`, and that step, cleaned again as a list item, gives `"x"` |
| `Reasoning.NoneReasoning` | AI-Agent-main/final/prompt.py:80-83 | a `None` reasoning becomes `["None"]`, not the placeholder |
| `Slicing.ScanFrom` | AI-Agent-main/final/prompt.py:129-138 | the scan from the first `[` yields the shortest non-empty prefix whose depth is back to 0 (it ends in `]`, and every shorter non-empty prefix has positive depth), or the whole rest when the depth never returns to 0 |
| `Slicing.FirstBalancedUnique` | AI-Agent-main/final/prompt.py:129-138 | that description fixes the slice: at most one prefix meets it |
| `Slicing.SlicePayload` | AI-Agent-main/final/prompt.py:123-138 | a snippet without `[` is returned unchanged; otherwise the result is the unique balanced cut of the snippet from its first `[` |
| `Slicing.ScanPayload` | AI-Agent-main/final/prompt.py:123-138 | the depth-counter loop as written, with its early return, computes exactly `SlicePayload` |
| `RegexSlicing.RegexSlice` | final/prompt.py:14 | a match of `\[[^\]]*\]` is a prefix of the snippet from its first `[`, starts with `[`, and contains exactly one `]`, its last character |
| `RegexSlicing.RegexSliceFinds` | final/prompt.py:14 | the regex finds a match exactly when some `[` is followed later by a `]` |
| `RegexSlicing.DepthLevel` | AI-Agent-main/final/prompt.py:131-137 | over a stretch without brackets the scan's depth does not change |
| `RegexSlicing.FlatBlock` | AI-Agent-main/final/prompt.py:129-138 | a `[...]` block with no bracket inside closes at its last character and not before |
| `RegexSlicing.FirstLine` | final/prompt.py:38 | `re.match(".+")` fails exactly on an empty text or one starting with `\n`; otherwise it is the longest prefix without `\n` |
| `RegexSlicing.RegexCandidate` | final/prompt.py:38 | the candidate is the regex match when there is one, otherwise the first line; there is none exactly when there is no match and the text is empty or starts with `\n` |
| `RegexSlicing.StrippedHasCandidate` | final/prompt.py:37-38 | a trimmed reply has a candidate exactly when it is non-empty |
| `RegexSlicing.SlicersAgree` | final/prompt.py:38 | when the first regex match holds no inner `[`, it equals the balanced slice |
| `RegexSlicing.NestedTruncated` | final/prompt.py:14 | when the first block holds an inner `[`, the regex match is still unbalanced; it is a prefix of the balanced slice, and a proper prefix when that slice closes |
| `RegexSlicing.NestedExampleRegex` | final/prompt.py:14 | on the reply `[2, ["a"], 0.9]` the regex candidate is `[2, ["a"]`, cut at the inner `]` |
| `RegexSlicing.NestedExampleBalanced` | AI-Agent-main/final/prompt.py:129-138 | on the same reply the balanced slice is the whole triple |
| `Triplet.Fallback` | AI-Agent-main/final/prompt.py:37-39 | the fallback is `(5, [s], 0.0)` with `s` the first `min(len, 200)` characters of the snippet, or the sentinel when the snippet is empty |
| `Triplet.Normalise` | AI-Agent-main/final/prompt.py:40-44 | a found triple always normalises to a well-formed answer |
| `Triplet.NormaliseNumbers` | AI-Agent-main/final/prompt.py:41-42 | an int option and a float confidence are clipped to [1, 5] and [0, 1] |
| `Triplet.NormaliseCleanSteps` | AI-Agent-main/final/prompt.py:43 | a list of clean strings is kept as the reasoning; an empty one gives the placeholder |
| `Triplet.NormaliseWellFormedTriple` | AI-Agent-main/final/prompt.py:40-44 | `[o, [s1, ...], c]` with clean steps gives `(clip(o), [s1, ...], clip(c))` |
| `State.KeptOptions` | final/state.py:18-23 | the kept options are no more than the cells, each non-empty and stripped |
| `State.OptionCells` | final/state.py:19-21 | the four option cells in column order: the row's cell where the column is present, `None` where it is missing |
| `State.KeptOptionsAppend` | final/state.py:18-23 | the option filter keeps order: it distributes over concatenation |
| `State.KeptOptionCell` | final/state.py:19-22 | a non-string cell (a NaN, a missing column) or a blank string is dropped; any other string is kept, stripped |
| `State.OptionsInColumnOrder` | final/state.py:18-21 | the options are the kept cells of `answer_option_1` to `answer_option_4`, in that order |
| `State.MakeAgentState` | final/state.py:17-31 | at most four stripped non-empty options; `reasoning=[]`, `answer_option=5`, `confidence=0.0`; `query` and `topic` copied from their columns, `""` when absent |
| `Prompt.FirstNotNone` | AI-Agent-main/final/prompt.py:67 | the result is `None` exactly when every value is; otherwise it is the first value that is not `None` |
| `Prompt.FromDict` | AI-Agent-main/final/prompt.py:59-72 | no triple exactly when all three option keys are absent or `None`; the option is the first that is not `None`; reasoning and confidence take the first truthy key, else the last key's value |
| `Prompt.ParseTriplet` | AI-Agent-main/final/prompt.py:46-57 | what `json.loads` gives decides when it is a list or tuple of three or a dict; otherwise what `ast.literal_eval` gives, when that is decisive; otherwise there is no triple |
| `Prompt.ParseWith` | AI-Agent-main/final/prompt.py:46-57 | loaders are tried in order; the first that gives a list or tuple of three, or a dict, decides the result; if none does, there is no triple |
| `Prompt.DictEndsSearch` | AI-Agent-main/final/prompt.py:53-56 | a dict from `json.loads` ends the search, even when it maps to no triple |
| `Prompt.ListEndsSearch` | AI-Agent-main/final/prompt.py:53-54 | a three-element list from `json.loads` is taken as the triple, in order |
| `Prompt.NonTripleMovesOn` | AI-Agent-main/final/prompt.py:48-57 | a parse error, a wrong-length list or a scalar from `json.loads` hands the candidate to `ast.literal_eval` |
| `Prompt.Extract` | AI-Agent-main/final/prompt.py:32-44 | every reply yields a well-formed answer; with no triple in the slice it is the fallback of the trimmed reply |
| `Prompt.ExtractFound` | AI-Agent-main/final/prompt.py:40-44 | a triple found in the slice is clamped and cleaned into the answer |
| `Prompt.EmptyReply` | AI-Agent-main/final/prompt.py:34-39 | a blank reply gives `(5, ["Unable to parse model response."], 0.0)` |
| `Prompt.NoBracketWholeSnippet` | AI-Agent-main/final/prompt.py:126-128 | a reply without `[` is parsed whole |
| `Prompt.ListTripleReply` | AI-Agent-main/final/prompt.py:32-44 | a JSON triple `[o, [s1, ...], c]` with clean steps gives `(clip(o), [s1, ...], clip(c))`; with no steps (`[o, [], c]`) the reasoning is the placeholder |
| `Prompt.DictReplyTriple` | AI-Agent-main/final/prompt.py:59-72 | a dict with an int option, a non-empty reasoning line and a float confidence maps to that triple, except that a zero confidence, being falsy, falls through to `probability`, absent, so `None` |
| `Prompt.DictReplyConfidence` | AI-Agent-main/final/prompt.py:94-101 | that confidence, a float or `None` for zero, clamps to the clipped float either way |
| `Prompt.DictFieldsAnswer` | AI-Agent-main/final/prompt.py:40-44 | such fields clamp and clean to `(clip(o), [line], clip(c))` |
| `Prompt.DictReply` | AI-Agent-main/final/prompt.py:32-44 | a dict reply with an option, a one-line reasoning and any float confidence gives `(clip(o), [line], clip(c))` |
| `Prompt.DictWithoutReasoning` | AI-Agent-main/final/prompt.py:70 | a dict with an option but no reasoning keys gives the reasoning `["None"]` |
| `Prompt.DictWithoutOption` | AI-Agent-main/final/prompt.py:67-69 | a dict with none of the option keys gives the fallback answer |
| `Prompt.Call` | AI-Agent-main/final/prompt.py:18-30 | `__call__` on a reply returns `_extract(raw_text)`, a well-formed answer; it writes exactly its three fields into the state, leaves the rest unchanged, and records the reply as `last_raw` |
| `DictReplies.SliceStartsWithBracket` | AI-Agent-main/final/prompt.py:126-138 | a snippet holding a `[` anywhere gives a candidate that starts with `[`, so the loaders can only read it as a list |
| `DictReplies.BlockAfterHead` | AI-Agent-main/final/prompt.py:126-138 | a balanced block after a prefix without `[` is the candidate, whatever follows it |
| `DictReplies.DictReplyCandidate` | AI-Agent-main/final/prompt.py:34-35 | the dict reply `{"reasoning": ["a", "b", "c"], ...}` is cut to `["a", "b", "c"]` |
| `DictReplies.DictReplyMisread` | AI-Agent-main/final/prompt.py:32-44 | that reply gives `(5, ["b"], 0.0)`: the steps become option, reasoning and confidence, and the keys are ignored |
| `DictReplies.ExtractDictFirst` | AI-Agent-main/final/prompt.py:32-44 | the corrected `_extract` answers well-formed; it equals the as-written one on every reply that does not load whole as a dict, or yields no triple whole |
| `DictReplies.DictFirstReadsKeys` | AI-Agent-main/final/prompt.py:53-72 | under the correction a reply that loads whole as a dict naming an option is answered from that dict's keys |
| `DictReplies.DictFirstAgrees` | AI-Agent-main/final/prompt.py:126-128 | on a reply without `[` the correction changes nothing |
| `DictReplies.DictReplyCorrected` | AI-Agent-main/final/prompt.py:59-72 | under the correction the same dict reply gives `(2, ["a", "b", "c"], 0.9)` |
| `RegexPrompt.ListParseWith` | final/prompt.py:49-58 | loaders are tried in order; the first that gives a list or tuple of three decides the result; dicts are not recognised |
| `RegexPrompt.ParseListTriplet` | final/prompt.py:49-58 | the list or tuple of three from `json.loads`, else the one from `ast.literal_eval`, else no triple |
| `RegexPrompt.Extract` | final/prompt.py:35-47 | the regex normaliser fails exactly on a blank reply; otherwise its answer is well-formed |
| `RegexPrompt.ExtractOutcome` | final/prompt.py:39-47 | once there is a candidate, the answer is the fallback when no list triple is found and the normalised triple when one is |
| `RegexPrompt.EmptyReplyCrashes` | final/prompt.py:37-38 | the replies `""` and `" \n"` make it fail |
| `RegexPrompt.ExtractCorrected` | final/prompt.py:35-47 | the corrected normaliser always answers: the sentinel fallback on a blank reply, and the as-written answer otherwise |
| `RegexPrompt.DictReplyIgnored` | final/prompt.py:49-58 | a dict reply falls back: this version has no dict path |
| `RegexPrompt.ParsersAgree` | final/prompt.py:49-58 | on a candidate that neither loader reads as a dict, the list-only parser and the balanced-scan parser agree |
| `RegexPrompt.NormalisersAgree` | final/prompt.py:35-47 | when the first `[...]` holds no inner `[` and is not read as a dict, both normalisers give the same answer |
| `Router.RouteTopic` | AI-Agent-main/final/graph.py:30-37 | the label is always a key of the edge map, mapped to itself; `sequence_solver` exactly when the lowered topic contains "sequence"; `classic_riddle` exactly when it does not but contains "riddle" or "puzzle"; otherwise `other_task` |
| `Router.TopicText` | AI-Agent-main/final/graph.py:31-32 | a falsy topic gives the empty text and a string topic its lower-cased form; the text never holds an ASCII capital |
| `Router.RouteIgnoresCase` | AI-Agent-main/final/graph.py:32 | topics that agree once lower-cased route alike |
| `Router.KeywordRoutes` | AI-Agent-main/final/graph.py:33-36 | a keyword occurring anywhere in the topic, in any case, picks its node |
| `Router.EmptyTopicIsOther` | AI-Agent-main/final/graph.py:31 | a missing, `None` or empty topic goes to `other_task` |
| `Router.RouteOfLower` | AI-Agent-main/final/graph.py:32 | a topic routes as its lower-cased form |
| `Router.SequenceFirst` | AI-Agent-main/final/graph.py:33-34 | "Riddle Sequence" is routed as a sequence: "sequence" takes precedence |

## Left out

- `_coerce` (both versions): flattening LangChain/Ollama response objects is duck-typed inspection of foreign objects. The reply text is an input instead.
- The `OllamaLLM` client and the `invoke` call in `__call__`: network I/O. The message building with `guidance` only feeds that call.
- The internals of `json.loads`, `ast.literal_eval`, `float()` of a string and `repr()`: foreign parsers and printers. They are the parameters of the `Python` record.
- Literal values outside `Value` are not modelled: sets, bytes, complex numbers, and dicts with non-string keys. `ast.literal_eval` can return all of them, and the source treats some of them in ways the model cannot show. `float(b"0.9")` is 0.9 in `_clamp_float`. `b""` and `0j` are falsy in the `or` chains of `_extract_from_dict`. A reasoning `{1: "x"}` is truthy there and gives the step `{1: 'x'}`.
- `Coerce.ClampInt`: `repr` is a parameter, so a float, list, tuple or dict option is only known to yield the default when `repr` prints it as Python does (`Coerce.FloatsPrintAsFloats` with `Coerce.ClampIntOfFloat`, `Coerce.ContainersPrintBracketed` with `Coerce.ClampIntOfContainer`).
- `Coerce.ClampFloat`: NaN and the infinities are not modelled. Confidences are finite reals, and `float()` overflow on huge ints is not modelled either.
- `PyInt.IntOfText`: Unicode decimal digits other than ASCII are not accepted. Python's limit of 4300 digits on integer text is not modelled.
- `PyText.Lower`: lower-cases ASCII letters only. The routing keywords are ASCII; other case mappings are not modelled.
- `Router.RouteTopic`: a missing `topic` key is passed as `None`, which `or ""` treats like any falsy topic.
- `Reasoning.CleanReasoning`: no idempotence is promised, because the source does not have it. The scalar path strips only ` -*\t` after splitting, so a trailing whitespace character that is not a bullet survives, and cleaning the printed step again as a list item removes it (`Reasoning.RecleanChangesSteps`). A step holding an unbalanced `]`, such as `range (0, 1]`, likewise changes what a re-parse of the printed answer slices.
- `Prompt.Call`: only the balanced-scan `__call__` is modelled. In the regex version, a blank reply raises before the state is touched (`RegexPrompt.Extract`).
- `make_agent_state` reads a pandas `Series`; it is modelled as a map from column name to cell.
- Both `nodes.py` files: prompt templates and the model call.
- `final/main.py`: argument parsing, CSV reading and writing, and the per-row loop.
- `build_graph`, the langgraph wiring: only its edge map is modelled.

## Findings

| source | as written | input that shows it | evidently intended | confidence | as-written member | corrected member |
|---|---|---|---|---|---|---|
| final/prompt.py:38 | `(self._SLICE.search(snippet) or re.match(r".+", snippet)).group(0)` calls `.group` on `None` when the trimmed reply is empty, so `AttributeError` escapes `_extract`, and the fallback sentinel at line 41 is unreachable | the reply `""` (or any blank reply such as `" \n"`) | a blank reply gets `(5, ["Unable to parse model response."], 0.0)`, as in the balanced-scan version | not executed | `RegexPrompt.EmptyReplyCrashes` | `RegexPrompt.ExtractCorrected` |
| final/prompt.py:14 | `\[[^\]]*\]` stops at the first `]`, so for a triple with a nested list the candidate ends at the inner list's `]` and is never the whole triple | `[2, ["a"], 0.9]` gives the candidate `[2, ["a"]`, which is neither JSON nor a Python literal, so the reply falls back | the candidate is the first balanced `[...]` block, as the balanced-scan version computes | not executed | `RegexSlicing.NestedTruncated` | `Slicing.SlicePayload` |
| AI-Agent-main/final/prompt.py:126-137 | `_slice_payload` cuts every snippet that holds a `[` to its first balanced `[...]` block, even when the snippet is a dict, so a dict reply whose reasoning is a list is parsed from that list and `_extract_from_dict` never sees its keys | `{"reasoning": ["a", "b", "c"], "answer_option": 2, "confidence": 0.9}` gives `(5, ["b"], 0.0)`: the three steps are taken as option, reasoning and confidence | a dict reply is answered from its keys, `(2, ["a", "b", "c"], 0.9)`, as `_extract_from_dict` is there to do | not executed | `DictReplies.DictReplyMisread` | `DictReplies.ExtractDictFirst` |

=== FILE: coerce.dfy ===
/** `_clamp_int` and `_clamp_float`: coerce a decoded field to a number, fall back to
    a default when coercion raises, and clip the number into inclusive bounds. */
module Coerce {
  import opened Wrappers
  import opened PyText
  import opened PyValue
  import PyInt

  /** Python's `max(low, min(high, x))` on integers. */
  function Clip(low: int, high: int, x: int): (r: int)
    ensures low <= high ==> low <= r <= high
    ensures low <= x <= high ==> r == x
    ensures x <= low ==> r == low
    ensures low <= high && high <= x ==> r == high
  {
    var m := if x < high then x else high;
    if m > low then m else low
  }

  /** Python's `max(low, min(high, x))` on floats, finite values only. */
  function ClipReal(low: real, high: real, x: real): (r: real)
    ensures low <= high ==> low <= r <= high
    ensures low <= x <= high ==> r == x
    ensures x <= low ==> r == low
    ensures low <= high && high <= x ==> r == high
  {
    var m := if x < high then x else high;
    if m > low then m else low
  }

  /** `int(str(value).strip())`; `None` where Python raises. */
  function IntOf(py: Python, value: Value): (r: Option<int>)
    ensures value.VInt? ==> r == Some(value.i)
    ensures value.VNone? || value.VBool? ==> r.None?
  {
    IntOfScalars(py, value);
    PyInt.IntOfText(Strip(Str(py, value)))
  }

  /** The text of an int or of `None`, `True`, `False` has nothing for `strip` to remove. */
  lemma IntOfScalars(py: Python, value: Value)
    ensures value.VInt? ==> PyInt.IntOfText(Strip(Str(py, value))) == Some(value.i)
    ensures value.VNone? || value.VBool? ==> PyInt.IntOfText(Strip(Str(py, value))) == None
  {
    if value.VInt? {
      IntTextStrips(py, value.i);
    } else if value.VNone? || value.VBool? {
      WordTextStrips(py, value);
    }
  }

  /** `int(str(n).strip()) == n`. */
  lemma IntTextStrips(py: Python, n: int)
    ensures PyInt.IntOfText(Strip(Str(py, VInt(n)))) == Some(n)
  {
    StripTrimmed(Str(py, VInt(n)), IsSpace);
  }

  /** `int(str(v).strip())` raises for `None`, `True` and `False`. */
  lemma WordTextStrips(py: Python, value: Value)
    requires value.VNone? || value.VBool?
    ensures PyInt.IntOfText(Strip(Str(py, value))) == None
  {
    var text := Str(py, value);
    assert !IsSpace(text[0]) && !IsSpace(text[|text| - 1]);
    StripTrimmed(text, IsSpace);
    PyInt.RejectsForeignCharacter(text, 0);
  }

  /** `float(value)`; `None` where Python raises (`TypeError` for `None`, lists, tuples
      and dicts, `ValueError` for text that is not a float). */
  function FloatOf(py: Python, value: Value): (r: Option<real>)
    ensures value.VFloat? ==> r == Some(value.f)
    ensures value.VInt? ==> r == Some(value.i as real)
    ensures value.VNone? || value.VList? || value.VTuple? || value.VDict? ==> r.None?
  {
    match value
    case VBool(b) => Some(if b then 1.0 else 0.0)
    case VInt(n) => Some(n as real)
    case VFloat(f) => Some(f)
    case VStr(s) => py.floatOfText(s)
    case _ => None
  }

  /** `_clamp_int(value, low, high, default=default)`. */
  function ClampInt(py: Python, value: Value, low: int, high: int, default: int): (r: int)
    ensures low <= high ==> low <= r <= high
    ensures IntOf(py, value).None? ==> r == Clip(low, high, default)
    ensures IntOf(py, value).Some? ==> r == Clip(low, high, IntOf(py, value).value)
  {
    var number := match IntOf(py, value) case Some(n) => n case None => default;
    Clip(low, high, number)
  }

  /** `_clamp_float(value, low, high, default=default)`. */
  function ClampFloat(py: Python, value: Value, low: real, high: real, default: real): (r: real)
    ensures low <= high ==> low <= r <= high
    ensures FloatOf(py, value).None? ==> r == ClipReal(low, high, default)
    ensures FloatOf(py, value).Some? ==> r == ClipReal(low, high, FloatOf(py, value).value)
  {
    var number := match FloatOf(py, value) case Some(f) => f case None => default;
    ClipReal(low, high, number)
  }

  /** An integer option is clipped into the bounds: `int(str(n).strip()) == n`. */
  lemma ClampIntOfInt(py: Python, n: int, low: int, high: int, default: int)
    ensures ClampInt(py, VInt(n), low, high, default) == Clip(low, high, n)
  {
    var t := PyInt.Decimal(n);
    StripTrimmed(t, IsSpace);
    PyInt.DecimalRoundTrip(n);
  }

  /** A string option is read after stripping its surrounding whitespace. */
  lemma ClampIntOfText(py: Python, s: string, n: int, low: int, high: int, default: int)
    requires Strip(s) == PyInt.Decimal(n)
    ensures ClampInt(py, VStr(s), low, high, default) == Clip(low, high, n)
  {
    assert Str(py, VStr(s)) == s;
    PyInt.DecimalRoundTrip(n);
    assert IntOf(py, VStr(s)) == Some(n);
  }

  /** Text whose character `k` cannot occur in an integer literal is not an integer. */
  lemma IntOfForeign(py: Python, value: Value, k: nat)
    requires k < |Strip(Str(py, value))|
    requires Strip(Str(py, value))[k] in {'.', 'N', 'T', 'F'}
    ensures IntOf(py, value) == None
  {
    PyInt.RejectsForeignCharacter(Strip(Str(py, value)), k);
  }

  /** Values whose text is not an integer literal fall back to the default:
      `None`, `True`, `False`, and anything whose text holds a `.` such as `2.0`. */
  lemma ClampIntFallsBack(py: Python, value: Value, low: int, high: int, default: int)
    requires value.VNone? || value.VBool? || '.' in Strip(Str(py, value))
    ensures ClampInt(py, value, low, high, default) == Clip(low, high, default)
  {
    if value.VNone? || value.VBool? {
      var text := Str(py, value);
      assert text[0] in {'N', 'T', 'F'};
      assert !IsSpace(text[0]) && !IsSpace(text[|text| - 1]);
      StripTrimmed(text, IsSpace);
      IntOfForeign(py, value, 0);
    } else {
      var t := Strip(Str(py, value));
      var k :| 0 <= k < |t| && t[k] == '.';
      IntOfForeign(py, value, k);
    }
  }

  /** Text in which a float prints: it holds `.`, `e` or `n` (`2.0`, `1e+16`, `inf`, `nan`). */
  predicate FloatText(t: string) {
    '.' in t || 'e' in t || 'n' in t
  }

  /** `repr` prints every float as Python does, with a `.`, an exponent or `inf`/`nan`. */
  ghost predicate FloatsPrintAsFloats(py: Python) {
    forall f: real :: FloatText(py.repr(VFloat(f)))
  }

  /** A float option is never read as an integer (`int("2.0")` raises), so it always
      yields the clipped default. */
  lemma ClampIntOfFloat(py: Python, f: real, low: int, high: int, default: int)
    requires FloatsPrintAsFloats(py)
    ensures ClampInt(py, VFloat(f), low, high, default) == Clip(low, high, default)
  {
    var t := Str(py, VFloat(f));
    assert FloatText(t);
    var c := if '.' in t then '.' else if 'e' in t then 'e' else 'n';
    StripKeeps(t, c);
    var k :| 0 <= k < |Strip(t)| && Strip(t)[k] == c;
    PyInt.RejectsForeignCharacter(Strip(t), k);
  }

  /** The values Python prints as a bracketed display: lists, tuples and dicts. */
  predicate IsContainer(v: Value) {
    v.VList? || v.VTuple? || v.VDict?
  }

  /** `repr` prints every list, tuple and dict as Python does, opening with `[`, `(`
      or `{`. */
  ghost predicate ContainersPrintBracketed(py: Python) {
    forall v: Value | IsContainer(v) :: py.repr(v) != [] && py.repr(v)[0] in {'[', '(', '{'}
  }

  /** A list, tuple or dict option is never read as an integer, so it always yields
      the clipped default. */
  lemma ClampIntOfContainer(py: Python, v: Value, low: int, high: int, default: int)
    requires ContainersPrintBracketed(py) && IsContainer(v)
    ensures ClampInt(py, v, low, high, default) == Clip(low, high, default)
  {
    var t := Str(py, v);
    assert t == py.repr(v);
    StripKeeps(t, t[0]);
    var k :| 0 <= k < |Strip(t)| && Strip(t)[k] == t[0];
    PyInt.RejectsForeignCharacter(Strip(t), k);
  }

  /** A finite float confidence is clipped into the bounds; inside them it is kept. */
  lemma ClampFloatOfFloat(py: Python, f: real, low: real, high: real, default: real)
    requires low <= high
    ensures low <= f <= high ==> ClampFloat(py, VFloat(f), low, high, default) == f
    ensures f < low ==> ClampFloat(py, VFloat(f), low, high, default) == low
    ensures high < f ==> ClampFloat(py, VFloat(f), low, high, default) == high
  {
  }

  /** An integer confidence becomes `float(n)` before clipping, a boolean 0.0 or 1.0. */
  lemma ClampFloatOfNumber(py: Python, value: Value, low: real, high: real, default: real)
    requires value.VInt? || value.VBool?
    ensures value.VInt? ==> ClampFloat(py, value, low, high, default) == ClipReal(low, high, value.i as real)
    ensures value.VBool? ==> ClampFloat(py, value, low, high, default) == ClipReal(low, high, if value.b then 1.0 else 0.0)
  {
  }

  /** `None`, lists, tuples and dicts cannot be converted and give the default. */
  lemma ClampFloatFallsBack(py: Python, value: Value, low: real, high: real, default: real)
    requires value.VNone? || value.VList? || value.VTuple? || value.VDict?
    ensures ClampFloat(py, value, low, high, default) == ClipReal(low, high, default)
  {
  }
}

=== FILE: dict_reply.dfy ===
/** Dict replies in the balanced-scan normaliser. `_slice_payload` cuts any reply that
    holds a `[` down to its first balanced `[...]` block, so a JSON dict whose
    reasoning is a list is read through that list and `_extract_from_dict` never sees
    its keys. The corrected normaliser tries the whole trimmed reply as a dict first. */
module DictReplies {
  import opened Wrappers
  import opened PyText
  import opened PyValue
  import opened Coerce
  import opened Reasoning
  import opened Slicing
  import opened RegexSlicing
  import opened Triplet
  import opened Prompt

  /** Whatever precedes it, the candidate of a snippet holding a `[` starts with `[`:
      a text `json.loads` or `ast.literal_eval` can only read as a list, never as a dict. */
  lemma SliceStartsWithBracket(snippet: string)
    requires '[' in snippet
    ensures SlicePayload(snippet) != [] && SlicePayload(snippet)[0] == '['
  {
    var t := snippet[Find(snippet, '[')..];
    assert t[0] == '[';
  }

  /** The first `[` of `head + rest` is the first character of `rest` when `head` has none. */
  lemma FindAfterHead(head: string, rest: string)
    requires '[' !in head
    requires |rest| > 0 && rest[0] == '['
    ensures Find(head + rest, '[') == |head|
  {
    var s := head + rest;
    assert s[|head|] == '[';
    var i := Find(s, '[');
    if i < |head| {
      assert false;
    }
    if i > |head| {
      assert false;
    }
  }

  /** A balanced block after a prefix without `[` is the candidate, whatever follows it. */
  lemma BlockAfterHead(head: string, block: string, tail: string)
    requires '[' !in head
    requires |block| > 0 && block[0] == '[' && block[|block| - 1] == ']'
    requires Depth(block) == 0
    requires forall k | 0 < k < |block| :: OpenAt(block, k)
    ensures SlicePayload(head + block + tail) == block
  {
    var s := head + block + tail;
    assert s == head + (block + tail);
    FindAfterHead(head, block + tail);
    var t := s[|head|..];
    assert t == block + tail;
    assert block <= t;
    assert block[..|block|] == block;
    assert FirstBalanced(t, block);
    FirstBalancedUnique(t, block, SlicePayload(s));
  }

  /** A reasoning list of three steps, and a dict reply holding it. */
  const StepsText: string := "[\"a\", \"b\", \"c\"]"
  const DictHead: string := "{\"reasoning\": "
  const DictTail: string := ", \"answer_option\": 2, \"confidence\": 0.9}"
  const DictReplyText: string := DictHead + StepsText + DictTail

  /** The three steps the reply's reasoning list holds. */
  const Steps: seq<string> := ["a", "b", "c"]

  /** The dict `json.loads` makes of `DictReplyText`. */
  const ReplyDict: map<string, Value> :=
    map["reasoning" := StrList(Steps), "answer_option" := VInt(2), "confidence" := VFloat(0.9)]

  /** The depth of `StepsText` stays positive until its closing `]`. */
  lemma StepsBalanced()
    ensures |StepsText| == 15 && StepsText[0] == '[' && StepsText[14] == ']'
    ensures Depth(StepsText) == 0
    ensures forall k | 0 < k < |StepsText| :: OpenAt(StepsText, k)
  {
    FlatBlock(StepsText);
  }

  /** The dict reply is already trimmed, and its candidate is its reasoning list. */
  lemma DictReplyCandidate()
    ensures Strip(DictReplyText) == DictReplyText
    ensures SlicePayload(DictReplyText) == StepsText
  {
    var s := DictReplyText;
    assert s[0] == '{' && s[|s| - 1] == '}';
    StripTrimmed(s, IsSpace);
    assert '[' !in DictHead;
    StepsBalanced();
    BlockAfterHead(DictHead, StepsText, DictTail);
  }

  /** As written: the reply is read through its reasoning list. The first step becomes
      the option (not a number: the default 5), the second the one reasoning step, the
      third the confidence (not a float: 0.0); `answer_option` 2 and `confidence` 0.9
      are never looked at. */
  lemma DictReplyMisread(py: Python)
    requires py.jsonLoads(StepsText) == Some(VList([VStr("a"), VStr("b"), VStr("c")]))
    requires py.floatOfText("c").None?
    ensures Extract(py, DictReplyText) == Answer(5, ["b"], 0.0)
  {
    DictReplyCandidate();
    ListEndsSearch(py, StepsText, VStr("a"), VStr("b"), VStr("c"));
    ExtractFound(py, DictReplyText, Triple(VStr("a"), VStr("b"), VStr("c")));
    LettersTriple(py);
  }

  /** The triple of three one-letter steps: no option, one step, no confidence. */
  lemma LettersTriple(py: Python)
    requires py.floatOfText("c").None?
    ensures Normalise(py, Triple(VStr("a"), VStr("b"), VStr("c"))) == Answer(5, ["b"], 0.0)
  {
    StripTrimmed("a", IsSpace);
    PyInt.RejectsForeignCharacter("a", 0);
    assert NoBreak("b");
    OneLineText(py, VStr("b"));
  }

  /** `isinstance(result, dict)` for a loader's result. */
  predicate IsDict(r: Option<Value>) {
    r.Some? && r.value.VDict?
  }

  /** `_parse_triplet(s)` ends on a dict: `json.loads` gives one, or gives nothing
      decisive and `ast.literal_eval` gives one. */
  predicate ReadsAsDict(py: Python, s: string) {
    IsDict(py.jsonLoads(s)) || (!Decisive(py.jsonLoads(s)) && IsDict(py.literalEval(s)))
  }

  /** The corrected `_extract`: a trimmed reply that loads whole as a dict naming an
      option is read through `_extract_from_dict`; every other reply is treated as
      before. */
  function ExtractDictFirst(py: Python, rawText: string): (a: Answer)
    ensures WellFormed(a)
    ensures !ReadsAsDict(py, Strip(rawText)) ==> a == Prompt.Extract(py, rawText)
    ensures ParseTriplet(py, Strip(rawText)).None? ==> a == Prompt.Extract(py, rawText)
  {
    var snippet := Strip(rawText);
    var whole := ParseTriplet(py, snippet);
    if ReadsAsDict(py, snippet) && whole.Some? then Normalise(py, whole.value)
    else Prompt.Extract(py, rawText)
  }

  /** A reply that `json.loads` reads whole as a dict naming an option is answered from
      that dict's keys, whatever its values hold. */
  lemma DictFirstReadsKeys(py: Python, rawText: string, d: map<string, Value>)
    requires py.jsonLoads(Strip(rawText)) == Some(VDict(d))
    requires FromDict(d).Some?
    ensures ExtractDictFirst(py, rawText) == Normalise(py, FromDict(d).value)
  {
    DictEndsSearch(py, Strip(rawText), d);
  }

  /** Where the reply has no `[`, the correction changes nothing: the candidate was
      already the whole reply. */
  lemma DictFirstAgrees(py: Python, rawText: string)
    requires '[' !in Strip(rawText)
    ensures ExtractDictFirst(py, rawText) == Prompt.Extract(py, rawText)
  {
    NoBracketWholeSnippet(py, rawText);
  }

  lemma ReplyDictTriple()
    ensures FromDict(ReplyDict) == Some(Triple(VInt(2), StrList(Steps), VFloat(0.9)))
  {
    var d := ReplyDict;
    assert Get(d, "answer_option") == VInt(2);
    assert Get(d, "reasoning") == StrList(Steps);
    assert Get(d, "confidence") == VFloat(0.9);
  }

  /** The reply's own fields, clamped and cleaned. */
  lemma ReplyDictAnswer(py: Python)
    ensures Normalise(py, Triple(VInt(2), StrList(Steps), VFloat(0.9))) == Answer(2, Steps, 0.9)
  {
    assert Steps[0] == "a" && Steps[1] == "b" && Steps[2] == "c";
    NormaliseWellFormedTriple(py, 2, Steps, 0.9);
  }

  /** Corrected: the same reply is answered from its keys, `(2, ["a", "b", "c"], 0.9)`. */
  lemma DictReplyCorrected(py: Python)
    requires py.jsonLoads(DictReplyText) == Some(VDict(ReplyDict))
    ensures ExtractDictFirst(py, DictReplyText) == Answer(2, Steps, 0.9)
  {
    DictReplyCandidate();
    ReplyDictTriple();
    DictFirstReadsKeys(py, DictReplyText, ReplyDict);
    ReplyDictAnswer(py);
  }
}

=== FILE: prompt.dfy ===
/** The reply normaliser of `PromptRunner` in its balanced-scan version: slice the
    first balanced `[...]` block, try the loaders in order, accept a three-element
    list or tuple or a dict, then clamp and clean the fields. */
module Prompt {
  import opened Wrappers
  import opened PyText
  import opened PyValue
  import opened Coerce
  import opened Reasoning
  import opened Slicing
  import opened Triplet
  import opened State

  /** The `next(...)` over the option keys: the first value that is not `None`. */
  function FirstNotNone(vs: seq<Value>): (v: Value)
    ensures v.VNone? <==> forall i | 0 <= i < |vs| :: vs[i].VNone?
    ensures forall i | 0 <= i < |vs| && !vs[i].VNone? && (forall j | 0 <= j < i :: vs[j].VNone?) :: v == vs[i]
  {
    if vs == [] then VNone
    else if !vs[0].VNone? then vs[0]
    else
      var v := FirstNotNone(vs[1..]);
      assert forall i | 1 <= i < |vs| :: vs[i] == vs[1..][i - 1];
      v
  }

  /** `_extract_from_dict(data)`: the option is the first of `answer_option`, `option`,
      `predicted_option` that is not `None` (no option, no triple); reasoning and
      confidence take the first truthy key, else the last key's value. */
  function FromDict(d: map<string, Value>): (t: Option<Triple>)
    ensures t.None? <==> Get(d, "answer_option").VNone? && Get(d, "option").VNone? && Get(d, "predicted_option").VNone?
    ensures t.Some? && !Get(d, "answer_option").VNone? ==> t.value.option == Get(d, "answer_option")
    ensures t.Some? && Get(d, "answer_option").VNone? && !Get(d, "option").VNone? ==> t.value.option == Get(d, "option")
    ensures t.Some? && Get(d, "answer_option").VNone? && Get(d, "option").VNone? ==> t.value.option == Get(d, "predicted_option")
    ensures t.Some? ==> t.value.reasoning == Or(Or(Get(d, "reasoning"), Get(d, "reasons")), Get(d, "explanation"))
    ensures t.Some? ==> t.value.confidence == Or(Or(Get(d, "confidence"), Get(d, "score")), Get(d, "probability"))
  {
    var keys := [Get(d, "answer_option"), Get(d, "option"), Get(d, "predicted_option")];
    var option := FirstNotNone(keys);
    if option.VNone? then
      assert keys[0].VNone? && keys[1].VNone? && keys[2].VNone?;
      None
    else
      assert keys[0].VNone? && !keys[1].VNone? ==> option == keys[1] by {
        if keys[0].VNone? && !keys[1].VNone? {
          assert forall j | 0 <= j < 1 :: keys[j].VNone?;
        }
      }
      Some(Triple(
        option,
        Or(Or(Get(d, "reasoning"), Get(d, "reasons")), Get(d, "explanation")),
        Or(Or(Get(d, "confidence"), Get(d, "score")), Get(d, "probability"))))
  }

  /** A loader result that ends the search: a list or tuple of three, or a dict. */
  predicate Decisive(r: Option<Value>) {
    r.Some? && ((IsSequence(r.value) && |r.value.items| == 3) || r.value.VDict?)
  }

  /** What a decisive result yields: the triple, or what the dict maps to. */
  function Accept(v: Value): Option<Triple>
    requires Decisive(Some(v))
  {
    if IsSequence(v) && |v.items| == 3 then Some(Triple(v.items[0], v.items[1], v.items[2]))
    else FromDict(v.entries)
  }

  /** The loader loop of `_parse_triplet`, over any list of loaders. */
  function ParseWith(loaders: seq<string -> Option<Value>>, candidate: string): (t: Option<Triple>)
    ensures (forall i | 0 <= i < |loaders| :: !Decisive(loaders[i](candidate))) ==> t.None?
    ensures forall k | 0 <= k < |loaders| && Decisive(loaders[k](candidate))
              && (forall i | 0 <= i < k :: !Decisive(loaders[i](candidate))) ::
              t == Accept(loaders[k](candidate).value)
  {
    if loaders == [] then None
    else
      var r := loaders[0](candidate);
      if Decisive(r) then Accept(r.value)
      else
        var t := ParseWith(loaders[1..], candidate);
        assert forall i | 1 <= i < |loaders| :: loaders[i] == loaders[1..][i - 1];
        t
  }

  /** `_parse_triplet(candidate)`: `json.loads` first, then `ast.literal_eval`. */
  function ParseTriplet(py: Python, candidate: string): (t: Option<Triple>)
    ensures Decisive(py.jsonLoads(candidate)) ==> t == Accept(py.jsonLoads(candidate).value)
    ensures !Decisive(py.jsonLoads(candidate)) && Decisive(py.literalEval(candidate)) ==>
              t == Accept(py.literalEval(candidate).value)
    ensures !Decisive(py.jsonLoads(candidate)) && !Decisive(py.literalEval(candidate)) ==> t.None?
  {
    var loaders := [py.jsonLoads, py.literalEval];
    assert loaders[0] == py.jsonLoads && loaders[1] == py.literalEval;
    ParseWith(loaders, candidate)
  }

  /** `_extract(raw_text)`. */
  function Extract(py: Python, rawText: string): (a: Answer)
    ensures WellFormed(a)
    ensures ParseTriplet(py, SlicePayload(Strip(rawText))).None? ==> a == Fallback(Strip(rawText))
  {
    var snippet := Strip(rawText);
    var candidate := SlicePayload(snippet);
    match ParseTriplet(py, candidate)
    case None => Fallback(snippet)
    case Some(t) => Normalise(py, t)
  }

  /** A triple found in the slice is what the answer is made of. */
  lemma ExtractFound(py: Python, rawText: string, t: Triple)
    requires ParseTriplet(py, SlicePayload(Strip(rawText))) == Some(t)
    ensures Extract(py, rawText) == Normalise(py, t)
  {
  }

  /** The runner's only state: the last raw reply, for debugging. */
  datatype Runner = Runner(lastRaw: Option<string>)

  /** `PromptRunner.__call__` once the model has replied `rawText`: it writes exactly
      `answer_option`, `reasoning` and `confidence` into the state, records the reply
      as `last_raw`, and returns the answer. */
  function Call(py: Python, runner: Runner, state: AgentState, rawText: string): (out: (Runner, AgentState, Answer))
    ensures out.2 == Extract(py, rawText)
    ensures out.0.lastRaw == Some(rawText)
    ensures WellFormed(out.2)
    ensures out.1.query == state.query && out.1.topic == state.topic && out.1.options == state.options
    ensures out.1.answerOption == out.2.option && out.1.reasoning == out.2.reasoning && out.1.confidence == out.2.confidence
  {
    var a := Extract(py, rawText);
    (Runner(Some(rawText)), state.(answerOption := a.option, reasoning := a.reasoning, confidence := a.confidence), a)
  }

  // Loader order.

  /** A dict from `json.loads` ends the search, even when it holds no option:
      `ast.literal_eval` is not consulted. */
  lemma DictEndsSearch(py: Python, candidate: string, d: map<string, Value>)
    requires py.jsonLoads(candidate) == Some(VDict(d))
    ensures ParseTriplet(py, candidate) == FromDict(d)
  {
    assert [py.jsonLoads, py.literalEval][0] == py.jsonLoads;
  }

  /** A wrong-length list, a scalar, or a parse error from `json.loads` passes the
      candidate on to `ast.literal_eval`. */
  lemma NonTripleMovesOn(py: Python, candidate: string)
    requires !Decisive(py.jsonLoads(candidate))
    ensures Decisive(py.literalEval(candidate)) ==> ParseTriplet(py, candidate) == Accept(py.literalEval(candidate).value)
    ensures !Decisive(py.literalEval(candidate)) ==> ParseTriplet(py, candidate) == None
  {
    var loaders := [py.jsonLoads, py.literalEval];
    assert loaders[0] == py.jsonLoads && loaders[1] == py.literalEval;
  }

  /** A three-element list from `json.loads` is the triple. */
  lemma ListEndsSearch(py: Python, candidate: string, x: Value, y: Value, z: Value)
    requires py.jsonLoads(candidate) == Some(VList([x, y, z]))
    ensures ParseTriplet(py, candidate) == Some(Triple(x, y, z))
  {
    assert [py.jsonLoads, py.literalEval][0] == py.jsonLoads;
  }

  // Scenarios.

  /** An empty or blank reply, which neither loader accepts, gives
      `(5, ["Unable to parse model response."], 0.0)`. */
  lemma EmptyReply(py: Python, rawText: string)
    requires Strip(rawText) == []
    requires py.jsonLoads([]).None? && py.literalEval([]).None?
    ensures Extract(py, rawText) == Answer(5, [Unparsed], 0.0)
  {
    NonTripleMovesOn(py, []);
  }

  /** A reply without `[` is handed to the loaders whole: a dict reply is parsed,
      not sent to the fallback. */
  lemma NoBracketWholeSnippet(py: Python, rawText: string)
    requires '[' !in Strip(rawText)
    ensures ParseTriplet(py, SlicePayload(Strip(rawText))) == ParseTriplet(py, Strip(rawText))
  {
  }

  /** A JSON triple `[o, [s1, ...], c]` with clean steps gives
      `(clip(o, 1, 5), [s1, ...], clip(c, 0, 1))`; with no steps, the placeholder. */
  lemma ListTripleReply(py: Python, rawText: string, o: int, strs: seq<string>, c: real)
    requires forall i | 0 <= i < |strs| :: strs[i] != [] && Trimmed(strs[i], IsSpace)
    requires py.jsonLoads(SlicePayload(Strip(rawText))) == Some(VList([VInt(o), StrList(strs), VFloat(c)]))
    ensures strs != [] ==> Extract(py, rawText) == Answer(Clip(1, 5, o), strs, ClipReal(0.0, 1.0, c))
    ensures strs == [] ==> Extract(py, rawText) == Answer(Clip(1, 5, o), [NotProvided], ClipReal(0.0, 1.0, c))
  {
    var t := Triple(VInt(o), StrList(strs), VFloat(c));
    ListEndsSearch(py, SlicePayload(Strip(rawText)), VInt(o), StrList(strs), VFloat(c));
    ExtractFound(py, rawText, t);
    NormaliseWellFormedTriple(py, o, strs, c);
  }

  /** The triple `_extract_from_dict` reads from such a dict: a zero confidence is
      falsy, so `or` falls through to the absent `score` and `probability`. */
  lemma DictReplyTriple(d: map<string, Value>, o: int, line: string, c: real)
    requires d == map["answer_option" := VInt(o), "reasoning" := VStr(line), "confidence" := VFloat(c)]
    requires line != []
    ensures FromDict(d).Some?
    ensures FromDict(d).value.option == VInt(o) && FromDict(d).value.reasoning == VStr(line)
    ensures c != 0.0 ==> FromDict(d).value.confidence == VFloat(c)
    ensures c == 0.0 ==> FromDict(d).value.confidence == VNone
  {
    assert Get(d, "answer_option") == VInt(o);
    assert Get(d, "reasoning") == VStr(line);
    assert Get(d, "score") == VNone && Get(d, "probability") == VNone;
  }

  /** Either way the confidence comes out as `clip(c, 0, 1)`. */
  lemma DictReplyConfidence(py: Python, v: Value, c: real)
    requires c != 0.0 ==> v == VFloat(c)
    requires c == 0.0 ==> v == VNone
    ensures ClampFloat(py, v, 0.0, 1.0, DefaultConfidence) == ClipReal(0.0, 1.0, c)
  {
  }

  /** A dict reply `{"answer_option": o, "reasoning": line, "confidence": c}` with a
      one-line reasoning gives `(clip(o, 1, 5), [line], clip(c, 0, 1))`. */
  lemma DictReply(py: Python, rawText: string, d: map<string, Value>, o: int, line: string, c: real)
    requires d == map["answer_option" := VInt(o), "reasoning" := VStr(line), "confidence" := VFloat(c)]
    requires line != [] && NoBreak(line) && Trimmed(line, IsSpace) && Trimmed(line, IsBullet)
    requires py.jsonLoads(SlicePayload(Strip(rawText))) == Some(VDict(d))
    ensures Extract(py, rawText) == Answer(Clip(1, 5, o), [line], ClipReal(0.0, 1.0, c))
  {
    DictEndsSearch(py, SlicePayload(Strip(rawText)), d);
    DictReplyTriple(d, o, line, c);
    var t := FromDict(d).value;
    ExtractFound(py, rawText, t);
    DictFieldsAnswer(py, t, o, line, c);
  }

  /** The fields of such a dict, clamped and cleaned. */
  lemma DictFieldsAnswer(py: Python, t: Triple, o: int, line: string, c: real)
    requires t.option == VInt(o) && t.reasoning == VStr(line)
    requires line != [] && NoBreak(line) && Trimmed(line, IsSpace) && Trimmed(line, IsBullet)
    requires c != 0.0 ==> t.confidence == VFloat(c)
    requires c == 0.0 ==> t.confidence == VNone
    ensures Normalise(py, t) == Answer(Clip(1, 5, o), [line], ClipReal(0.0, 1.0, c))
  {
    ClampIntOfInt(py, o, LowOption, HighOption, DefaultOption);
    OneLineText(py, VStr(line));
    DictReplyConfidence(py, t.confidence, c);
  }

  /** A dict with an option but no reasoning key yields the reasoning `["None"]`. */
  lemma DictWithoutReasoning(py: Python, d: map<string, Value>)
    requires FromDict(d).Some?
    requires "reasoning" !in d && "reasons" !in d && "explanation" !in d
    ensures Normalise(py, FromDict(d).value).reasoning == ["None"]
  {
    NoneReasoning(py);
  }

  /** A dict with none of the option keys gives no triple, hence the fallback. */
  lemma DictWithoutOption(py: Python, rawText: string, d: map<string, Value>)
    requires "answer_option" !in d && "option" !in d && "predicted_option" !in d
    requires py.jsonLoads(SlicePayload(Strip(rawText))) == Some(VDict(d))
    ensures Extract(py, rawText) == Fallback(Strip(rawText))
  {
    DictEndsSearch(py, SlicePayload(Strip(rawText)), d);
  }
}

=== FILE: pyint.dfy ===
/** Python's `str(n)` for an `int` and `int(text)` on already stripped text. */
module PyInt {
  import opened Wrappers

  predicate IsDigit(c: char) {
    '0' <= c <= '9'
  }

  function DigitValue(c: char): (d: nat)
    requires IsDigit(c)
    ensures d < 10
  {
    c as int - '0' as int
  }

  function DigitChar(d: nat): (c: char)
    requires d < 10
    ensures IsDigit(c) && DigitValue(c) == d
  {
    (d + '0' as int) as char
  }

  predicate DigitOrUnderscore(c: char) {
    IsDigit(c) || c == '_'
  }

  /** The digit part Python's `int()` accepts in base 10: ASCII digits, with single
      underscores allowed between two digits. */
  predicate ValidDigits(s: string) {
    && |s| >= 1
    && IsDigit(s[0])
    && IsDigit(s[|s| - 1])
    && (forall i | 0 <= i < |s| :: DigitOrUnderscore(s[i]))
    && (forall i | 0 <= i < |s| - 1 :: s[i] == '_' ==> IsDigit(s[i + 1]))
  }

  /** The number the digits spell, underscores ignored. */
  function DigitsValue(s: string): nat
    requires forall i | 0 <= i < |s| :: DigitOrUnderscore(s[i])
  {
    if s == [] then 0
    else
      var last := s[|s| - 1];
      assert DigitOrUnderscore(last);
      var rest := DigitsValue(s[..|s| - 1]);
      if last == '_' then rest else rest * 10 + DigitValue(last)
  }

  /** Python's `str(n)` for a natural number: decimal, no leading zero. */
  function Digits(n: nat): (s: string)
    ensures |s| >= 1
    ensures forall i | 0 <= i < |s| :: IsDigit(s[i])
    ensures |s| > 1 ==> s[0] != '0'
  {
    if n < 10 then [DigitChar(n)] else Digits(n / 10) + [DigitChar(n % 10)]
  }

  /** Python's `str(n)` for an `int`. */
  function Decimal(n: int): (s: string)
    ensures |s| >= 1
    ensures s[0] == '-' || IsDigit(s[0])
    ensures forall i | 0 < i < |s| :: IsDigit(s[i])
    ensures IsDigit(s[|s| - 1])
  {
    if n < 0 then "-" + Digits(-n) else Digits(n)
  }

  /** Python's `int(text)` on text that has already been stripped: an optional sign,
      then base-10 digits; anything else raises `ValueError`, modelled as `None`. */
  function IntOfText(t: string): (r: Option<int>)
    ensures r.Some? ==> |t| >= 1 && forall i | 0 <= i < |t| :: DigitOrUnderscore(t[i]) || (i == 0 && (t[i] == '+' || t[i] == '-'))
    ensures r.Some? ==> exists i | 0 <= i < |t| :: IsDigit(t[i])
  {
    if |t| > 0 && (t[0] == '+' || t[0] == '-') then
      var body := t[1..];
      if ValidDigits(body) then
        assert IsDigit(t[1]);
        var v: int := DigitsValue(body);
        Some(if t[0] == '-' then -v else v)
      else None
    else if ValidDigits(t) then
      assert IsDigit(t[0]);
      Some(DigitsValue(t))
    else None
  }

  /** Reading back the decimal text of a natural number gives the number. */
  lemma {:induction false} DigitsRoundTrip(n: nat)
    ensures ValidDigits(Digits(n))
    ensures DigitsValue(Digits(n)) == n
    decreases n
  {
    var s := Digits(n);
    if n >= 10 {
      DigitsRoundTrip(n / 10);
      assert s[..|s| - 1] == Digits(n / 10);
      assert s[|s| - 1] == DigitChar(n % 10);
    }
  }

  /** `int(str(n)) == n` for every Python `int`. */
  lemma DecimalRoundTrip(n: int)
    ensures IntOfText(Decimal(n)) == Some(n)
  {
    var t := Decimal(n);
    if n < 0 {
      DigitsRoundTrip(-n);
      assert t[0] == '-';
      assert t[1..] == Digits(-n);
    } else {
      DigitsRoundTrip(n);
      assert t == Digits(n);
      assert IsDigit(t[0]);
    }
  }

  /** Text holding a character that is neither a digit, an underscore nor a leading
      sign (the `.` of `2.0`, the letters of `True` or `None`) is rejected. */
  lemma RejectsForeignCharacter(t: string, k: nat)
    requires k < |t|
    requires !DigitOrUnderscore(t[k])
    requires k > 0 || (t[k] != '+' && t[k] != '-')
    ensures IntOfText(t) == None
  {
  }
}

=== FILE: pytext.dfy ===
/** The pieces of Python's `str` behaviour the normaliser relies on:
    `strip`, `strip(chars)`, `splitlines`, `find`, `lower` and `in`. */
module PyText {
  import opened Seqs

  /** Python's `str.isspace()`: the characters `str.strip()` with no argument removes. */
  predicate IsSpace(c: char) {
    || c == ' ' || c == '\t' || c == '\n' || c == '\r'
    || c == '\U{000B}' || c == '\U{000C}'
    || c == '\U{001C}' || c == '\U{001D}' || c == '\U{001E}' || c == '\U{001F}'
    || c == '\U{0085}' || c == '\U{00A0}' || c == '\U{1680}'
    || ('\U{2000}' <= c <= '\U{200A}')
    || c == '\U{2028}' || c == '\U{2029}' || c == '\U{202F}' || c == '\U{205F}' || c == '\U{3000}'
  }

  /** The line boundaries of `str.splitlines()`; `\r\n` counts as one boundary. */
  predicate IsLineBreak(c: char) {
    || c == '\n' || c == '\r' || c == '\U{000B}' || c == '\U{000C}'
    || c == '\U{001C}' || c == '\U{001D}' || c == '\U{001E}'
    || c == '\U{0085}' || c == '\U{2028}' || c == '\U{2029}'
  }

  predicate AllSatisfy(s: string, p: char -> bool) {
    forall k | 0 <= k < |s| :: p(s[k])
  }

  /** Neither end of `r` is a character `strip` would remove. */
  predicate Trimmed(r: string, p: char -> bool) {
    r == [] || (!p(r[0]) && !p(r[|r| - 1]))
  }

  predicate NoBreak(s: string) {
    forall k | 0 <= k < |s| :: !IsLineBreak(s[k])
  }

  /** Length of the longest prefix of `s` made of characters satisfying `p`. */
  function LeadingCount(s: string, p: char -> bool): (n: nat)
    ensures n <= |s|
    ensures AllSatisfy(s[..n], p)
    ensures n < |s| ==> !p(s[n])
  {
    if s == [] || !p(s[0]) then 0 else 1 + LeadingCount(s[1..], p)
  }

  /** Length of the longest suffix of `s` made of characters satisfying `p`. */
  function TrailingCount(s: string, p: char -> bool): (n: nat)
    ensures n <= |s|
    ensures AllSatisfy(s[|s| - n..], p)
    ensures n < |s| ==> !p(s[|s| - n - 1])
  {
    if s == [] || !p(s[|s| - 1]) then 0 else 1 + TrailingCount(s[..|s| - 1], p)
  }

  /** Python's `s.strip(chars)`, with `p` the membership test of `chars`:
      the result is the infix of `s` left after dropping the maximal leading and
      trailing runs of characters in `p`. */
  function StripBy(s: string, p: char -> bool): (r: string)
    ensures Trimmed(r, p)
    ensures var i := LeadingCount(s, p);
      && i + |r| <= |s|
      && r == s[i..i + |r|]
      && AllSatisfy(s[..i], p)
      && AllSatisfy(s[i + |r|..], p)
  {
    var i := LeadingCount(s, p);
    var t := s[i..];
    var r := t[..|t| - TrailingCount(t, p)];
    assert r == [] || r[0] == s[i];
    r
  }

  /** Python's `s.strip()`. */
  function Strip(s: string): (r: string)
    ensures Trimmed(r, IsSpace)
  {
    StripBy(s, IsSpace)
  }

  /** A string whose ends are already kept is returned unchanged by `strip`. */
  lemma StripTrimmed(s: string, p: char -> bool)
    requires Trimmed(s, p)
    ensures StripBy(s, p) == s
  {
    assert LeadingCount(s, p) == 0;
    assert TrailingCount(s, p) == 0;
  }

  /** `strip` is idempotent. */
  lemma StripIdempotent(s: string, p: char -> bool)
    ensures StripBy(StripBy(s, p), p) == StripBy(s, p)
  {
    StripTrimmed(StripBy(s, p), p);
  }

  /** An infix of a break-free string is break-free. */
  lemma NoBreakInfix(s: string, i: nat, j: nat)
    requires i <= j <= |s|
    requires NoBreak(s)
    ensures NoBreak(s[i..j])
  {
    forall k | 0 <= k < j - i ensures !IsLineBreak(s[i..j][k]) {
      assert s[i..j][k] == s[i + k];
    }
  }

  /** Stripping a break-free string leaves it break-free. */
  lemma StripKeepsNoBreak(s: string, p: char -> bool)
    ensures NoBreak(s) ==> NoBreak(StripBy(s, p))
  {
    if NoBreak(s) {
      var i := LeadingCount(s, p);
      NoBreakInfix(s, i, i + |StripBy(s, p)|);
    }
  }

  /** Python's `s.find(c)`: the first index of `c`, or -1. */
  function Find(s: string, c: char): (i: int)
    ensures -1 <= i < |s|
    ensures i == -1 <==> c !in s
    ensures 0 <= i ==> s[i] == c && c !in s[..i]
  {
    if s == [] then -1
    else if s[0] == c then 0
    else
      var j := Find(s[1..], c);
      if j == -1 then -1
      else
        assert s[..j + 1] == [s[0]] + s[1..][..j];
        j + 1
  }

  /** Index of the first line boundary of `s`, or `|s|`. */
  function LineLength(s: string): (k: nat)
    ensures k <= |s|
    ensures NoBreak(s[..k])
    ensures k < |s| ==> IsLineBreak(s[k])
  {
    if s == [] || IsLineBreak(s[0]) then 0
    else
      var k := 1 + LineLength(s[1..]);
      assert s[..k] == [s[0]] + s[1..][..k - 1];
      k
  }

  /** Length of the line boundary starting at `s[k]`: 2 for `\r\n`, else 1. */
  function BoundaryLength(s: string, k: nat): (n: nat)
    requires k < |s|
    ensures 1 <= n <= 2 && k + n <= |s|
    ensures n == 2 ==> s[k] == '\r' && s[k + 1] == '\n'
  {
    if s[k] == '\r' && k + 1 < |s| && s[k + 1] == '\n' then 2 else 1
  }

  /** The text after the first line and its boundary. */
  function RestAfterLine(s: string): (rest: string)
    requires LineLength(s) < |s|
    ensures |rest| < |s|
  {
    s[LineLength(s) + BoundaryLength(s, LineLength(s))..]
  }

  /** Python's `s.splitlines()` (no `keepends`): no trailing empty line after a final
      boundary, and `\r\n` is a single boundary. */
  function SplitLines(s: string): (lines: seq<string>)
    ensures |lines| == 0 <==> s == []
    ensures forall i | 0 <= i < |lines| :: NoBreak(lines[i])
    decreases |s|
  {
    if s == [] then []
    else
      var k := LineLength(s);
      if k == |s| then
        assert s[..k] == s;
        [s]
      else
        [s[..k]] + SplitLines(RestAfterLine(s))
  }

  /** `s` with its line-boundary characters removed. */
  function Unbroken(s: string): string {
    if s == [] then []
    else (if IsLineBreak(s[0]) then [] else [s[0]]) + Unbroken(s[1..])
  }

  function Concat(lines: seq<string>): string {
    if lines == [] then [] else lines[0] + Concat(lines[1..])
  }

  lemma {:induction false} UnbrokenAppend(a: string, b: string)
    ensures Unbroken(a + b) == Unbroken(a) + Unbroken(b)
    decreases |a|
  {
    if a == [] {
      assert a + b == b;
    } else {
      assert (a + b)[0] == a[0];
      assert (a + b)[1..] == a[1..] + b;
      UnbrokenAppend(a[1..], b);
    }
  }

  lemma {:induction false} UnbrokenOfNoBreak(s: string)
    requires NoBreak(s)
    ensures Unbroken(s) == s
    decreases |s|
  {
    if s != [] {
      NoBreakInfix(s, 1, |s|);
      UnbrokenOfNoBreak(s[1..]);
    }
  }

  /** The boundary itself contributes nothing to the text. */
  lemma SeparatorUnbroken(s: string, k: nat)
    requires k < |s|
    requires IsLineBreak(s[k])
    ensures Unbroken(s[k..k + BoundaryLength(s, k)]) == []
  {
    var t := s[k..k + BoundaryLength(s, k)];
    assert t[0] == s[k];
    if |t| == 2 {
      assert t[1..][0] == '\n';
      assert Unbroken(t[1..][1..]) == [];
      assert Unbroken(t[1..]) == [];
    } else {
      assert t[1..] == [];
    }
  }

  lemma ConcatCons(head: string, lines: seq<string>)
    ensures Concat([head] + lines) == head + Concat(lines)
  {
    assert ([head] + lines)[1..] == lines;
  }

  /** A line, a boundary, and the rest: only the rest's boundaries are removed. */
  lemma UnbrokenAcross(head: string, bound: string, rest: string)
    requires NoBreak(head) && Unbroken(bound) == []
    ensures Unbroken(head + (bound + rest)) == head + Unbroken(rest)
  {
    UnbrokenOfNoBreak(head);
    UnbrokenAppend(bound, rest);
    assert Unbroken(bound + rest) == Unbroken(rest);
    UnbrokenAppend(head, bound + rest);
  }

  /** The lines of `s` are its first line, then the lines of the rest. */
  lemma ConcatFirstLine(s: string)
    requires LineLength(s) < |s|
    ensures Concat(SplitLines(s)) == s[..LineLength(s)] + Concat(SplitLines(RestAfterLine(s)))
  {
    var lines := SplitLines(RestAfterLine(s));
    assert SplitLines(s) == [s[..LineLength(s)]] + lines;
    ConcatCons(s[..LineLength(s)], lines);
  }

  /** The text of `s` is its first line, then the text of the rest. */
  lemma UnbrokenFirstLine(s: string)
    requires LineLength(s) < |s|
    ensures Unbroken(s) == s[..LineLength(s)] + Unbroken(RestAfterLine(s))
  {
    var k := LineLength(s);
    var e := k + BoundaryLength(s, k);
    var head, bound, rest := s[..k], s[k..e], s[e..];
    assert RestAfterLine(s) == rest;
    SeparatorUnbroken(s, k);
    SplitThree(s, k, e);
    UnbrokenAcross(head, bound, rest);
  }

  /** One step of `splitlines`: the first line, then the lines of the rest. */
  lemma SplitLinesStep(s: string)
    requires LineLength(s) < |s|
    requires Concat(SplitLines(RestAfterLine(s))) == Unbroken(RestAfterLine(s))
    ensures Concat(SplitLines(s)) == Unbroken(s)
  {
    ConcatFirstLine(s);
    UnbrokenFirstLine(s);
  }

  /** `splitlines` loses nothing but the line boundaries: the lines, concatenated,
      are the text with its boundary characters removed. */
  lemma {:induction false} SplitLinesKeepsText(s: string)
    ensures Concat(SplitLines(s)) == Unbroken(s)
    decreases |s|
  {
    if s != [] {
      if LineLength(s) == |s| {
        assert s[..|s|] == s;
        UnbrokenOfNoBreak(s);
      } else {
        SplitLinesKeepsText(RestAfterLine(s));
        SplitLinesStep(s);
      }
    }
  }

  /** A line boundary as `splitlines` recognises it: `\r\n`, or one boundary character. */
  predicate IsBoundary(b: string) {
    b == "\r\n" || (|b| == 1 && IsLineBreak(b[0]))
  }

  /** The characters a line boundary takes up form a boundary. */
  lemma BoundaryAt(s: string, k: nat)
    requires k < |s| && IsLineBreak(s[k])
    ensures IsBoundary(s[k..k + BoundaryLength(s, k)])
  {
    if BoundaryLength(s, k) == 2 {
      assert s[k..k + 2] == [s[k], s[k + 1]];
    }
  }

  /** The boundary that ends each line of `splitlines(s)`, in order; the last one is
      empty when the text does not end with a boundary. */
  function Boundaries(s: string): (bs: seq<string>)
    ensures |bs| == |SplitLines(s)|
    ensures forall i | 0 <= i < |bs| :: IsBoundary(bs[i]) || (i == |bs| - 1 && bs[i] == [])
    decreases |s|
  {
    if s == [] then []
    else
      var k := LineLength(s);
      if k == |s| then [[]]
      else
        var b := s[k..k + BoundaryLength(s, k)];
        BoundaryAt(s, k);
        var rest := Boundaries(RestAfterLine(s));
        assert forall i | 1 <= i < |rest| + 1 :: ([b] + rest)[i] == rest[i - 1];
        [b] + rest
  }

  /** The last boundary is empty exactly when the text does not end with a break
      character. */
  lemma {:induction false} LastBoundary(s: string)
    requires s != []
    ensures Boundaries(s)[|Boundaries(s)| - 1] == [] <==> !IsLineBreak(s[|s| - 1])
    decreases |s|
  {
    if LineLength(s) == |s| {
      OneLineBoundary(s);
    } else if RestAfterLine(s) == [] {
      EndBoundary(s);
    } else {
      LastBoundary(RestAfterLine(s));
      LaterBoundary(s);
    }
  }

  /** A text with no break is one line ending in the empty boundary. */
  lemma OneLineBoundary(s: string)
    requires s != [] && LineLength(s) == |s|
    ensures Boundaries(s) == [[]] && !IsLineBreak(s[|s| - 1])
  {
    assert s[|s| - 1] == s[..LineLength(s)][|s| - 1];
  }

  /** A text whose first boundary is its end is one line ending in that boundary. */
  lemma EndBoundary(s: string)
    requires LineLength(s) < |s| && RestAfterLine(s) == []
    ensures |Boundaries(s)| == 1 && Boundaries(s)[0] != [] && IsLineBreak(s[|s| - 1])
  {
    var k := LineLength(s);
    var n := BoundaryLength(s, k);
    assert k + n == |s|;
  }

  /** Past the first line, the last boundary and the last character are the rest's. */
  lemma LaterBoundary(s: string)
    requires LineLength(s) < |s| && RestAfterLine(s) != []
    ensures var rest := RestAfterLine(s);
      Boundaries(s)[|Boundaries(s)| - 1] == Boundaries(rest)[|Boundaries(rest)| - 1]
      && s[|s| - 1] == rest[|rest| - 1]
  {
    var k := LineLength(s);
    var rest := RestAfterLine(s);
    assert Boundaries(s) == [s[k..k + BoundaryLength(s, k)]] + Boundaries(rest);
  }

  /** The lines, each followed by its boundary. */
  function Join(lines: seq<string>, bs: seq<string>): string
    requires |lines| == |bs|
  {
    if lines == [] then [] else lines[0] + bs[0] + Join(lines[1..], bs[1..])
  }

  /** Joining a first line and boundary ahead of the others. */
  lemma JoinCons(line: string, b: string, lines: seq<string>, bs: seq<string>)
    requires |lines| == |bs|
    ensures Join([line] + lines, [b] + bs) == line + b + Join(lines, bs)
  {
    assert ([line] + lines)[1..] == lines;
    assert ([b] + bs)[1..] == bs;
  }

  /** `splitlines` breaks the text exactly at its boundaries: each line followed by the
      boundary that ended it gives the text back. */
  lemma {:induction false} SplitLinesJoin(s: string)
    ensures Join(SplitLines(s), Boundaries(s)) == s
    decreases |s|
  {
    if s != [] {
      var k := LineLength(s);
      if k == |s| {
        assert s[..k] == s;
      } else {
        var e := k + BoundaryLength(s, k);
        var rest := RestAfterLine(s);
        var line, b := s[..k], s[k..e];
        var lines, bs := SplitLines(rest), Boundaries(rest);
        assert SplitLines(s) == [line] + lines;
        assert Boundaries(s) == [b] + bs;
        JoinCons(line, b, lines, bs);
        SplitLinesJoin(rest);
        assert rest == s[e..];
        SplitThree(s, k, e);
        AppendAssociative(line, b, rest);
      }
    }
  }

  /** A character `strip` does not remove survives it, wherever it stood. */
  lemma StripKeeps(s: string, c: char)
    requires c in s && !IsSpace(c)
    ensures c in Strip(s)
  {
    var r := Strip(s);
    var i := LeadingCount(s, IsSpace);
    var j :| 0 <= j < |s| && s[j] == c;
    assert i <= j < i + |r|;
    assert r[j - i] == c;
  }

  /** ASCII lower-casing: the routing keywords are ASCII, see README. */
  function LowerChar(c: char): char {
    if 'A' <= c <= 'Z' then (c as int + 32) as char else c
  }

  /** Python's `s.lower()`, restricted to ASCII letters. */
  function Lower(s: string): (r: string)
    ensures |r| == |s|
    ensures forall i | 0 <= i < |r| :: !('A' <= r[i] <= 'Z')
    ensures forall i | 0 <= i < |s| && !('A' <= s[i] <= 'Z') :: r[i] == s[i]
    ensures forall i | 0 <= i < |s| && 'A' <= s[i] <= 'Z' :: r[i] as int == s[i] as int + 32
  {
    seq(|s|, i requires 0 <= i < |s| => LowerChar(s[i]))
  }

  /** Python's `w in s` for strings. */
  predicate Contains(s: string, w: string) {
    exists i | 0 <= i <= |s| :: w <= s[i..]
  }

  lemma LowerIdempotent(s: string)
    ensures Lower(Lower(s)) == Lower(s)
  {
  }
}

=== FILE: pyvalue.dfy ===
/** The Python objects a reply can decode to, and the built-ins the normaliser
    applies to them: `str()`, truthiness, `dict.get`, `or` and `isinstance`. */
module PyValue {
  import opened Wrappers
  import PyInt

  /** The values of `json.loads` and `ast.literal_eval` that the model covers. Sets,
      bytes, complex numbers and dicts with non-string keys are not among them. */
  datatype Value =
    | VNone
    | VBool(b: bool)
    | VInt(i: int)
    | VFloat(f: real)
    | VStr(s: string)
    | VList(items: seq<Value>)
    | VTuple(items: seq<Value>)
    | VDict(entries: map<string, Value>)

  /** The foreign parts of the Python runtime, as total functions the model is given:
      the two loaders (`None` where they raise), `float()` of a string (`None` where it
      raises `ValueError`) and `repr()` of floats, lists, tuples and dicts. */
  datatype Python = Python(
    jsonLoads: string -> Option<Value>,
    literalEval: string -> Option<Value>,
    floatOfText: string -> Option<real>,
    repr: Value -> string)

  /** `isinstance(v, (list, tuple))`. */
  predicate IsSequence(v: Value) {
    v.VList? || v.VTuple?
  }

  /** Python's `str(v)`: a string is itself, an int its decimal text (which `int()`
      reads back), `None` and the booleans their capitalised names; floats, lists,
      tuples and dicts print through `repr`. */
  function Str(py: Python, v: Value): (r: string)
    ensures v.VStr? ==> r == v.s
    ensures v.VInt? ==> PyInt.IntOfText(r) == Some(v.i)
    ensures v.VNone? || v.VBool? ==> r != [] && r[0] in {'N', 'T', 'F'} && r[|r| - 1] == 'e'
  {
    match v
    case VNone => "None"
    case VBool(b) => if b then "True" else "False"
    case VInt(n) =>
      PyInt.DecimalRoundTrip(n);
      PyInt.Decimal(n)
    case VStr(s) => s
    case _ => py.repr(v)
  }

  /** The strings `strs` as string values, in order. */
  function StrValues(strs: seq<string>): (vs: seq<Value>)
    ensures |vs| == |strs|
  {
    if strs == [] then [] else [VStr(strs[0])] + StrValues(strs[1..])
  }

  /** Python's truth value of `v`. */
  predicate Truthy(v: Value) {
    match v
    case VNone => false
    case VBool(b) => b
    case VInt(n) => n != 0
    case VFloat(f) => f != 0.0
    case VStr(s) => s != []
    case VList(items) => items != []
    case VTuple(items) => items != []
    case VDict(entries) => entries != map[]
  }

  /** `d.get(key)`: the entry, or `None` when the key is absent. */
  function Get(d: map<string, Value>, key: string): (v: Value)
    ensures key !in d ==> v == VNone
    ensures key in d ==> v == d[key]
  {
    if key in d then d[key] else VNone
  }

  /** Python's `a or b`: the first operand when it is truthy, else the second. */
  function Or(a: Value, b: Value): (v: Value)
    ensures Truthy(a) ==> v == a
    ensures !Truthy(a) ==> v == b
  {
    if Truthy(a) then a else b
  }
}

=== FILE: reasoning.dfy ===
/** `_clean_reasoning`: turn the decoded reasoning field into a non-empty list of
    non-empty steps. */
module Reasoning {
  import opened PyText
  import opened PyValue
  import opened Seqs

  /** The step used when nothing else survives. */
  const NotProvided: string := "Reasoning not provided."

  /** The characters of `line.strip(" -*\t")`. */
  predicate IsBullet(c: char) {
    c == ' ' || c == '-' || c == '*' || c == '\t'
  }

  /** `[str(item).strip() for item in items if str(item).strip()]`. */
  function ItemSteps(py: Python, items: seq<Value>): (steps: seq<string>)
    ensures |steps| <= |items|
    ensures forall i | 0 <= i < |steps| :: steps[i] != [] && Trimmed(steps[i], IsSpace)
  {
    if items == [] then []
    else
      var t := Strip(Str(py, items[0]));
      var rest := ItemSteps(py, items[1..]);
      if t == [] then rest else [t] + rest
  }

  /** `[line.strip(" -*\t") for line in lines if line.strip(" -*\t")]`. */
  function LineSteps(lines: seq<string>): (steps: seq<string>)
    ensures |steps| <= |lines|
    ensures forall i | 0 <= i < |steps| :: steps[i] != [] && Trimmed(steps[i], IsBullet)
  {
    if lines == [] then []
    else
      var t := StripBy(lines[0], IsBullet);
      var rest := LineSteps(lines[1..]);
      (if t == [] then [] else [t]) + rest
  }

  /** The steps of a scalar reasoning value: its text, stripped, split into lines. */
  function TextSteps(py: Python, value: Value): (steps: seq<string>)
    ensures forall i | 0 <= i < |steps| :: steps[i] != [] && Trimmed(steps[i], IsBullet) && NoBreak(steps[i])
    ensures Strip(Str(py, value)) == [] ==> steps == []
  {
    var text := Strip(Str(py, value));
    var lines := if text != [] then SplitLines(text) else [];
    LineStepsNoBreak(lines);
    LineSteps(lines)
  }

  lemma NotProvidedIsClean()
    ensures NotProvided != [] && Trimmed(NotProvided, IsSpace) && Trimmed(NotProvided, IsBullet)
    ensures NoBreak(NotProvided)
  {
    var s := NotProvided;
    assert |s| == 23 && s[0] == 'R' && s[22] == '.';
    forall k | 0 <= k < |s| ensures !IsLineBreak(s[k]) {
      assert s[k] in "Reasoning not provided.";
    }
  }

  /** `_clean_reasoning(value)`. */
  function CleanReasoning(py: Python, value: Value): (r: seq<string>)
    ensures |r| >= 1
    ensures forall i | 0 <= i < |r| :: r[i] != []
    ensures IsSequence(value) ==> forall i | 0 <= i < |r| :: Trimmed(r[i], IsSpace)
    ensures !IsSequence(value) ==> forall i | 0 <= i < |r| :: Trimmed(r[i], IsBullet)
  {
    var steps := if IsSequence(value) then ItemSteps(py, value.items) else TextSteps(py, value);
    NotProvidedIsClean();
    if steps != [] then steps else [NotProvided]
  }

  /** The item filter keeps order: it distributes over concatenation. */
  lemma {:induction false} ItemStepsAppend(py: Python, a: seq<Value>, b: seq<Value>)
    ensures ItemSteps(py, a + b) == ItemSteps(py, a) + ItemSteps(py, b)
    decreases |a|
  {
    if a == [] {
      assert a + b == b;
    } else {
      var t := Strip(Str(py, a[0]));
      var head := if t == [] then [] else [t];
      assert (a + b)[0] == a[0];
      assert (a + b)[1..] == a[1..] + b;
      assert ItemSteps(py, a + b) == head + ItemSteps(py, a[1..] + b);
      assert ItemSteps(py, a) == head + ItemSteps(py, a[1..]);
      ItemStepsAppend(py, a[1..], b);
      AppendAssociative(head, ItemSteps(py, a[1..]), ItemSteps(py, b));
    }
  }

  /** One item: its `str(item).strip()` when that is non-empty, else nothing. With
      `ItemStepsAppend` this fixes the steps of every list. */
  lemma ItemStepsOne(py: Python, v: Value)
    ensures Strip(Str(py, v)) == [] ==> ItemSteps(py, [v]) == []
    ensures Strip(Str(py, v)) != [] ==> ItemSteps(py, [v]) == [Strip(Str(py, v))]
  {
    assert [v][1..] == [];
  }

  /** The line filter keeps order: it distributes over concatenation. */
  lemma {:induction false} LineStepsAppend(a: seq<string>, b: seq<string>)
    ensures LineSteps(a + b) == LineSteps(a) + LineSteps(b)
    decreases |a|
  {
    if a == [] {
      assert a + b == b;
    } else {
      assert (a + b)[0] == a[0];
      assert (a + b)[1..] == a[1..] + b;
      LineStepsAppend(a[1..], b);
    }
  }

  /** Stripping bullets from break-free lines leaves break-free steps. */
  lemma {:induction false} LineStepsNoBreak(lines: seq<string>)
    requires forall i | 0 <= i < |lines| :: NoBreak(lines[i])
    ensures forall i | 0 <= i < |LineSteps(lines)| :: NoBreak(LineSteps(lines)[i])
    decreases |lines|
  {
    if lines != [] {
      StripKeepsNoBreak(lines[0], IsBullet);
      LineStepsNoBreak(lines[1..]);
    }
  }

  /** A scalar reasoning is split into lines: no step contains a line boundary. */
  lemma ScalarReasoningLines(py: Python, value: Value)
    requires !IsSequence(value)
    ensures forall i | 0 <= i < |CleanReasoning(py, value)| :: NoBreak(CleanReasoning(py, value)[i])
  {
    TextStepsNoBreak(py, value);
    ScalarReasoning(py, value);
    if TextSteps(py, value) == [] {
      NotProvidedIsClean();
    }
  }

  lemma TextStepsNoBreak(py: Python, value: Value)
    ensures forall i | 0 <= i < |TextSteps(py, value)| :: NoBreak(TextSteps(py, value)[i])
  {
    var text := Strip(Str(py, value));
    LineStepsNoBreak(if text != [] then SplitLines(text) else []);
  }

  /** A scalar reasoning keeps the steps of its text; only when none survives does
      the placeholder appear. */
  lemma ScalarReasoning(py: Python, value: Value)
    requires !IsSequence(value)
    ensures TextSteps(py, value) != [] ==> CleanReasoning(py, value) == TextSteps(py, value)
    ensures TextSteps(py, value) == [] ==> CleanReasoning(py, value) == [NotProvided]
  {
  }

  /** A list reasoning keeps its stripped non-empty items, in order; only when none
      survives does the placeholder appear. */
  lemma ListReasoning(py: Python, value: Value)
    requires IsSequence(value)
    ensures ItemSteps(py, value.items) != [] ==> CleanReasoning(py, value) == ItemSteps(py, value.items)
    ensures ItemSteps(py, value.items) == [] ==> CleanReasoning(py, value) == [NotProvided]
  {
  }

  /** A list of strings that are already stripped and non-empty is kept verbatim. */
  lemma ItemStepsCleanCons(py: Python, t: string, rest: seq<Value>)
    requires t != [] && Trimmed(t, IsSpace)
    ensures ItemSteps(py, [VStr(t)] + rest) == [t] + ItemSteps(py, rest)
  {
    StripTrimmed(t, IsSpace);
    assert ([VStr(t)] + rest)[1..] == rest;
  }

  lemma {:induction false} CleanStringsKept(py: Python, strs: seq<string>)
    requires forall i | 0 <= i < |strs| :: strs[i] != [] && Trimmed(strs[i], IsSpace)
    ensures ItemSteps(py, StrValues(strs)) == strs
    decreases |strs|
  {
    if strs != [] {
      ItemStepsCleanCons(py, strs[0], StrValues(strs[1..]));
      CleanStringsKept(py, strs[1..]);
      HeadTail(strs);
    }
  }

  /** A list of clean strings is the reasoning itself; an empty list is the placeholder. */
  lemma CleanStringsReasoning(py: Python, strs: seq<string>)
    requires forall i | 0 <= i < |strs| :: strs[i] != [] && Trimmed(strs[i], IsSpace)
    ensures strs != [] ==> CleanReasoning(py, VList(StrValues(strs))) == strs
    ensures strs == [] ==> CleanReasoning(py, VList(StrValues(strs))) == [NotProvided]
  {
    var v := VList(StrValues(strs));
    CleanStringsKept(py, strs);
    assert ItemSteps(py, v.items) == strs;
    ListReasoning(py, v);
  }

  /** A scalar whose text is one line with no surrounding spaces or bullet characters
      is the single step. */
  lemma OneLineText(py: Python, value: Value)
    requires !IsSequence(value)
    requires Str(py, value) != [] && NoBreak(Str(py, value))
    requires Trimmed(Str(py, value), IsSpace) && Trimmed(Str(py, value), IsBullet)
    ensures CleanReasoning(py, value) == [Str(py, value)]
  {
    var s := Str(py, value);
    StripTrimmed(s, IsSpace);
    assert LineLength(s) == |s|;
    assert SplitLines(s) == [s];
    StripTrimmed(s, IsBullet);
    assert LineSteps([s]) == [s];
  }

  /** A reasoning of `None` (for example an absent key) becomes `["None"]`, not the
      placeholder, because `str(None)` is the non-empty text `None`. */
  lemma NoneReasoning(py: Python)
    ensures CleanReasoning(py, VNone) == ["None"]
    ensures CleanReasoning(py, VNone) != [NotProvided]
  {
    var s := Str(py, VNone);
    assert |s| == 4 && s[0] == 'N' && s[3] == 'e';
    forall k | 0 <= k < |s| ensures !IsLineBreak(s[k]) {
      assert s[k] in "None";
    }
    OneLineText(py, VNone);
    assert |NotProvided| != |s|;
  }

  /** Cleaning is not a fixpoint. The bullet strip of the scalar path keeps a trailing
      whitespace character that is not a bullet (here U+001F, which `isspace` accepts);
      cleaning that step again, now as an item of a list, strips it. */
  lemma RecleanChangesSteps(py: Python)
    ensures CleanReasoning(py, VStr(ControlDash)) == [ControlStep]
    ensures CleanReasoning(py, VList([VStr(ControlStep)])) == ["x"]
  {
    ControlDashSteps(py);
    ControlStepItem(py);
  }

  /** A step `x` followed by U+001F and a bullet dash. */
  const ControlDash: string := "x\U{001F}-"
  const ControlStep: string := "x\U{001F}"

  lemma ControlDashSteps(py: Python)
    ensures CleanReasoning(py, VStr(ControlDash)) == [ControlStep]
  {
    ControlDashLine();
    OneLineSteps(py, ControlDash);
    ControlDashBullets();
    SingleLineSteps(ControlDash);
    ScalarReasoning(py, VStr(ControlDash));
  }

  /** The steps of a stripped one-line text are those of that line alone. */
  lemma OneLineSteps(py: Python, s: string)
    requires s != [] && Strip(s) == s && SplitLines(s) == [s]
    ensures TextSteps(py, VStr(s)) == LineSteps([s])
  {
    assert Str(py, VStr(s)) == s;
  }

  /** One line that keeps something after the bullet strip is one step. */
  lemma SingleLineSteps(line: string)
    requires StripBy(line, IsBullet) != []
    ensures LineSteps([line]) == [StripBy(line, IsBullet)]
  {
    assert [line][1..] == [];
  }

  lemma ControlDashLine()
    ensures Strip(ControlDash) == ControlDash
    ensures SplitLines(ControlDash) == [ControlDash]
  {
    var s := ControlDash;
    assert |s| == 3 && s[0] == 'x' && s[1] == '\U{001F}' && s[2] == '-';
    StripTrimmed(s, IsSpace);
    assert LineLength(s[2..]) == 1;
    assert LineLength(s[1..]) == 2;
  }

  lemma ControlDashBullets()
    ensures StripBy(ControlDash, IsBullet) == ControlStep
  {
    var s := ControlDash;
    assert |s| == 3 && s[0] == 'x' && s[1] == '\U{001F}' && s[2] == '-';
    assert LeadingCount(s, IsBullet) == 0;
    var r := StripBy(s, IsBullet);
    assert |r| != 3 by { assert !IsBullet(s[2]) || r != s; }
    assert |r| == 2;
  }

  lemma ControlStepItem(py: Python)
    ensures CleanReasoning(py, VList([VStr(ControlStep)])) == ["x"]
  {
    var t := ControlStep;
    assert |t| == 2 && t[0] == 'x' && t[1] == '\U{001F}';
    assert LeadingCount(t, IsSpace) == 0;
    assert Strip(t) == "x";
    assert ItemSteps(py, [VStr(t)]) == ["x"];
  }
}

=== FILE: regex_prompt.dfy ===
/** The reply normaliser of `PromptRunner` in its regex version: the candidate is
    the first `[...]` without an inner `]`, or else the first line of the snippet,
    and only a list or tuple of three is accepted. */
module RegexPrompt {
  import opened Wrappers
  import opened PyText
  import opened PyValue
  import opened Reasoning
  import opened Slicing
  import opened RegexSlicing
  import opened Triplet
  import Prompt

  /** A loader result this version accepts: a list or tuple of three. */
  predicate IsTriple(r: Option<Value>) {
    r.Some? && IsSequence(r.value) && |r.value.items| == 3
  }

  /** The loader loop of this version's `_parse_triplet`: dicts are not recognised. */
  function ListParseWith(loaders: seq<string -> Option<Value>>, candidate: string): (t: Option<Triple>)
    ensures (forall i | 0 <= i < |loaders| :: !IsTriple(loaders[i](candidate))) ==> t.None?
    ensures forall k | 0 <= k < |loaders| && IsTriple(loaders[k](candidate))
              && (forall i | 0 <= i < k :: !IsTriple(loaders[i](candidate))) ::
              var v := loaders[k](candidate).value;
              t == Some(Triple(v.items[0], v.items[1], v.items[2]))
  {
    if loaders == [] then None
    else
      var r := loaders[0](candidate);
      if IsTriple(r) then Some(Triple(r.value.items[0], r.value.items[1], r.value.items[2]))
      else
        var t := ListParseWith(loaders[1..], candidate);
        assert forall i | 1 <= i < |loaders| :: loaders[i] == loaders[1..][i - 1];
        t
  }

  /** This version's `_parse_triplet(candidate)`: the list or tuple of three that
      `json.loads` gives, else the one `ast.literal_eval` gives, else none. */
  function ParseListTriplet(py: Python, candidate: string): (t: Option<Triple>)
    ensures IsTriple(py.jsonLoads(candidate)) ==> t == TripleOf(py.jsonLoads(candidate).value)
    ensures !IsTriple(py.jsonLoads(candidate)) && IsTriple(py.literalEval(candidate)) ==>
              t == TripleOf(py.literalEval(candidate).value)
    ensures !IsTriple(py.jsonLoads(candidate)) && !IsTriple(py.literalEval(candidate)) ==> t.None?
  {
    var loaders := [py.jsonLoads, py.literalEval];
    assert loaders[0] == py.jsonLoads && loaders[1] == py.literalEval;
    ListParseWith(loaders, candidate)
  }

  /** The triple of a three-element list or tuple, in order. */
  function TripleOf(v: Value): Option<Triple>
    requires IsSequence(v) && |v.items| == 3
  {
    Some(Triple(v.items[0], v.items[1], v.items[2]))
  }

  /** `_extract(raw_text)` as written. When the snippet is empty neither the regex
      nor `re.match(r".+", ...)` matches, and `None.group(0)` raises
      `AttributeError`: that is the `Err` case. */
  function Extract(py: Python, rawText: string): (r: Result<Answer, string>)
    ensures r.Err? <==> Strip(rawText) == []
    ensures r.Ok? ==> WellFormed(r.value)
  {
    var snippet := Strip(rawText);
    StrippedHasCandidate(rawText);
    match RegexCandidate(snippet)
    case None => Err("AttributeError: 'NoneType' object has no attribute 'group'")
    case Some(candidate) =>
      match ParseListTriplet(py, candidate)
      case None => Ok(Fallback(snippet))
      case Some(t) => Ok(Normalise(py, t))
  }

  /** Once a candidate exists, the answer is the fallback when it holds no list triple
      and the normalised triple when it does. */
  lemma ExtractOutcome(py: Python, rawText: string, candidate: string)
    requires RegexCandidate(Strip(rawText)) == Some(candidate)
    ensures ParseListTriplet(py, candidate).None? ==> Extract(py, rawText) == Ok(Fallback(Strip(rawText)))
    ensures ParseListTriplet(py, candidate).Some? ==> Extract(py, rawText) == Ok(Normalise(py, ParseListTriplet(py, candidate).value))
  {
  }

  /** The crash, on the smallest input. */
  lemma EmptyReplyCrashes(py: Python)
    ensures Extract(py, "").Err?
    ensures Extract(py, " \n").Err?
  {
    assert Strip(" \n") == [] by {
      assert LeadingCount(" \n", IsSpace) == 2;
    }
  }

  /** `_extract` as evidently intended: an empty reply gets the same sentinel answer as
      any other unparsable reply; every other reply is handled as written. */
  function ExtractCorrected(py: Python, rawText: string): (a: Answer)
    ensures WellFormed(a)
    ensures Strip(rawText) == [] ==> a == Answer(DefaultOption, [Unparsed], DefaultConfidence)
    ensures Strip(rawText) != [] ==> Extract(py, rawText) == Ok(a)
  {
    var snippet := Strip(rawText);
    StrippedHasCandidate(rawText);
    match RegexCandidate(snippet)
    case None => Fallback(snippet)
    case Some(candidate) =>
      match ParseListTriplet(py, candidate)
      case None => Fallback(snippet)
      case Some(t) => Normalise(py, t)
  }

  /** A reply whose candidate the loaders only read as a dict falls back: this version
      has no dict path. */
  lemma DictReplyIgnored(py: Python, rawText: string, d: map<string, Value>)
    requires RegexCandidate(Strip(rawText)).Some?
    requires py.jsonLoads(RegexCandidate(Strip(rawText)).value) == Some(VDict(d))
    requires !IsTriple(py.literalEval(RegexCandidate(Strip(rawText)).value))
    ensures Extract(py, rawText) == Ok(Fallback(Strip(rawText)))
  {
    var loaders := [py.jsonLoads, py.literalEval];
    assert loaders[0] == py.jsonLoads && loaders[1] == py.literalEval;
  }

  /** On a candidate neither loader reads as a dict, the two loader loops agree. */
  lemma ParsersAgree(py: Python, candidate: string)
    requires !(py.jsonLoads(candidate).Some? && py.jsonLoads(candidate).value.VDict?)
    requires !(py.literalEval(candidate).Some? && py.literalEval(candidate).value.VDict?)
    ensures ParseListTriplet(py, candidate) == Prompt.ParseTriplet(py, candidate)
  {
    var loaders := [py.jsonLoads, py.literalEval];
    assert loaders[0] == py.jsonLoads && loaders[1] == py.literalEval;
  }

  /** When the first `[...]` of the reply has no inner `[` and is not read as a dict,
      the regex normaliser and the balanced one give the same answer. */
  lemma NormalisersAgree(py: Python, rawText: string)
    requires RegexSlice(Strip(rawText)).Some?
    requires '[' !in RegexSlice(Strip(rawText)).value[1..]
    requires !(py.jsonLoads(RegexSlice(Strip(rawText)).value).Some? && py.jsonLoads(RegexSlice(Strip(rawText)).value).value.VDict?)
    requires !(py.literalEval(RegexSlice(Strip(rawText)).value).Some? && py.literalEval(RegexSlice(Strip(rawText)).value).value.VDict?)
    ensures Extract(py, rawText) == Ok(Prompt.Extract(py, rawText))
  {
    var snippet := Strip(rawText);
    var c := RegexSlice(snippet).value;
    RegexSliceFinds(snippet);
    assert RegexCandidate(snippet) == Some(c);
    SlicersAgree(snippet);
    ParsersAgree(py, c);
  }
}

=== FILE: regex_slicing.dfy ===
/** The candidate of the regex normaliser: `_SLICE.search(snippet)`, with
    `_SLICE = \[[^\]]*\]`, or else `re.match(r".+", snippet)`. */
module RegexSlicing {
  import opened Wrappers
  import opened PyText
  import opened Slicing
  import opened Seqs

  /** Some `[` of `s` is followed, later, by a `]`: the regex has a match. */
  predicate HasBracketPair(s: string) {
    exists i, j | 0 <= i < j < |s| :: s[i] == '[' && s[j] == ']'
  }

  /** `_SLICE.search(s)`. `[^\]]*` cannot pass a `]`, so a match starting at a `[`
      ends at the first `]` after it; the leftmost match therefore starts at the first
      `[` of `s`, provided some `]` follows it. */
  function RegexSlice(s: string): (r: Option<string>)
    ensures r.Some? ==>
      && '[' in s
      && r.value <= s[Find(s, '[')..]
      && |r.value| >= 2
      && r.value[0] == '['
      && r.value[|r.value| - 1] == ']'
      && ']' !in r.value[..|r.value| - 1]
  {
    var p := Find(s, '[');
    if p < 0 then None
    else
      var q := Find(s[p + 1..], ']');
      if q < 0 then None
      else
        BracketSlice(s, p, q);
        Some(s[p..p + q + 2])
  }

  /** From the first `[` at `p` to the first `]` after it, `q + 1` characters on. */
  lemma BracketSlice(s: string, p: nat, q: nat)
    requires p < |s| && s[p] == '['
    requires q < |s[p + 1..]| && s[p + 1..][q] == ']' && ']' !in s[p + 1..][..q]
    ensures s[p..p + q + 2] <= s[p..]
    ensures s[p..p + q + 2][q + 1] == ']'
    ensures ']' !in s[p..p + q + 1]
  {
    ConsSlice(s, p, q);
    SlicePrefix(s, p, q + 2);
  }

  /** The regex finds a match exactly when some `[` is followed by a `]`. */
  lemma RegexSliceFinds(s: string)
    ensures RegexSlice(s).None? <==> !HasBracketPair(s)
  {
    var p := Find(s, '[');
    if p >= 0 {
      var q := Find(s[p + 1..], ']');
      if q < 0 {
        NoCloseAfterFirstOpen(s, p);
      } else {
        assert s[p + q + 1] == s[p + 1..][q];
      }
    }
  }

  /** No `]` after the first `[`: no pair at all. */
  lemma NoCloseAfterFirstOpen(s: string, p: nat)
    requires p < |s| && '[' !in s[..p]
    requires ']' !in s[p + 1..]
    ensures !HasBracketPair(s)
  {
    forall i | 0 <= i < p
      ensures s[i] != '['
    {
      assert s[i] == s[..p][i];
    }
    forall i, j | 0 <= i < j < |s| && s[i] == '['
      ensures s[j] != ']'
    {
      assert s[j] == s[p + 1..][j - p - 1];
    }
  }

  /** `re.match(r".+", s)`: the longest non-empty prefix without `\n` (`.` matches
      every other character), or no match when `s` is empty or starts with `\n`. */
  function FirstLine(s: string): (r: Option<string>)
    ensures r.None? <==> (s == [] || s[0] == '\n')
    ensures r.Some? ==>
      && r.value <= s
      && |r.value| > 0
      && '\n' !in r.value
      && (|r.value| == |s| || s[|r.value|] == '\n')
  {
    var k := Find(s, '\n');
    var e := if k < 0 then |s| else k;
    if e == 0 then None else Some(s[..e])
  }

  /** `(_SLICE.search(s) or re.match(r".+", s))`, before `.group(0)`. */
  function RegexCandidate(s: string): (r: Option<string>)
    ensures r.None? <==> !HasBracketPair(s) && (s == [] || s[0] == '\n')
    ensures HasBracketPair(s) ==> r == RegexSlice(s)
    ensures !HasBracketPair(s) ==> r == FirstLine(s)
  {
    RegexSliceFinds(s);
    match RegexSlice(s)
    case Some(c) => Some(c)
    case None => FirstLine(s)
  }

  /** A stripped non-empty snippet always has a candidate: it cannot start with `\n`. */
  lemma StrippedHasCandidate(raw: string)
    ensures RegexCandidate(Strip(raw)).Some? <==> Strip(raw) != []
  {
    assert IsSpace('\n');
  }

  /** Between an opening `[` and the first `]` with no inner `[`, the depth is 1. */
  lemma {:induction false} FlatDepth(c: string, k: nat)
    requires |c| >= 2 && c[0] == '['
    requires forall i | 0 < i < |c| - 1 :: c[i] != '[' && c[i] != ']'
    requires 1 <= k <= |c| - 1
    ensures Depth(c[..k]) == 1
    decreases k
  {
    if k == 1 {
      assert c[..1][..0] == [];
    } else {
      FlatDepth(c, k - 1);
      DepthStep(c, k - 1);
    }
  }

  /** Over a stretch with no bracket the depth stays where it was. */
  lemma {:induction false} DepthLevel(c: string, j: nat, k: nat)
    requires j <= k <= |c|
    requires forall i | j <= i < k :: c[i] != '[' && c[i] != ']'
    ensures Depth(c[..k]) == Depth(c[..j])
    decreases k - j
  {
    if j < k {
      DepthLevel(c, j, k - 1);
      DepthStep(c, k - 1);
    }
  }

  /** A flat block `[...]`, with no bracket inside, closes at its end and not before. */
  lemma FlatBlock(c: string)
    requires |c| >= 2 && c[0] == '[' && c[|c| - 1] == ']'
    requires forall i | 0 < i < |c| - 1 :: c[i] != '[' && c[i] != ']'
    ensures Depth(c) == 0
    ensures forall k | 0 < k < |c| :: OpenAt(c, k)
  {
    forall k | 0 < k < |c|
      ensures OpenAt(c, k)
    {
      FlatDepth(c, k);
    }
    FlatDepth(c, |c| - 1);
    DepthStep(c, |c| - 1);
    assert c[..|c|] == c;
  }

  /** Without `]`, the depth never decreases along the prefixes. */
  lemma {:induction false} DepthRises(c: string, j: nat, k: nat)
    requires j <= k <= |c|
    requires forall i | 0 <= i < k :: c[i] != ']'
    ensures Depth(c[..j]) <= Depth(c[..k])
    decreases k - j
  {
    if j < k {
      DepthRises(c, j, k - 1);
      DepthStep(c, k - 1);
    }
  }

  /** The two slicers agree when the first `[...]` block has no inner `[`. */
  lemma SlicersAgree(s: string)
    requires RegexSlice(s).Some?
    requires '[' !in RegexSlice(s).value[1..]
    ensures SlicePayload(s) == RegexSlice(s).value
  {
    var c := RegexSlice(s).value;
    var t := s[Find(s, '[')..];
    forall i | 0 < i < |c| - 1
      ensures c[i] != '[' && c[i] != ']'
    {
      assert c[i] == c[1..][i - 1];
      assert c[i] == c[..|c| - 1][i];
    }
    FlatBlock(c);
    assert FirstBalanced(t, c);
    FirstBalancedUnique(t, c, SlicePayload(s));
  }

  /** A block that is still open at all its prefixes lies inside the balanced cut,
      strictly inside when the cut closes. */
  lemma OpenInsideCut(t: string, c: string, r: string)
    requires FirstBalanced(t, r)
    requires c <= t
    requires forall k | 0 < k <= |c| :: OpenAt(c, k)
    ensures c <= r
    ensures Depth(r) == 0 ==> |c| < |r|
  {
    if |r| <= |c| {
      assert r == c[..|r|];
      assert OpenAt(c, |r|);
      assert r == t;
      assert c == t;
    }
  }

  /** A `[...]` block without an inner `]` but with an inner `[` never closes: its
      depth stays positive at every non-empty prefix, itself included. */
  lemma NestedStaysOpen(c: string)
    requires |c| >= 2 && c[0] == '[' && c[|c| - 1] == ']'
    requires ']' !in c[..|c| - 1]
    requires '[' in c[1..]
    ensures forall k | 0 < k <= |c| :: OpenAt(c, k)
  {
    var last := |c| - 1;
    var m := 1 + Find(c[1..], '[');
    assert c[m] == '[';
    assert m < last;
    forall i | 0 <= i < last
      ensures c[i] != ']'
    {
      assert c[i] == c[..last][i];
    }
    assert c[..1][..0] == [];
    DepthRises(c, 1, m);
    DepthStep(c, m);
    DepthRises(c, m + 1, last);
    DepthStep(c, last);
    assert c[..|c|] == c;
    forall k | 0 < k <= |c|
      ensures OpenAt(c, k)
    {
      if k <= last {
        DepthRises(c, 1, k);
      }
    }
  }

  /** The regex truncates nested lists: when the first block holds an inner `[`, the
      regex candidate still has an unclosed `[` (so it is never a whole list), it is a
      prefix of the balanced slice, and a proper one whenever that slice closes. */
  lemma NestedTruncated(s: string)
    requires RegexSlice(s).Some?
    requires '[' in RegexSlice(s).value[1..]
    ensures Depth(RegexSlice(s).value) > 0
    ensures RegexSlice(s).value <= SlicePayload(s)
    ensures Depth(SlicePayload(s)) == 0 ==> |RegexSlice(s).value| < |SlicePayload(s)|
  {
    var c := RegexSlice(s).value;
    NestedStaysOpen(c);
    assert OpenAt(c, |c|) && c[..|c|] == c;
    OpenInsideCut(s[Find(s, '[')..], c, SlicePayload(s));
  }

  /** A triple whose reasoning is a nested list. */
  const NestedReply: string := "[2, [\"a\"], 0.9]"

  /** The depth of `NestedReply` stays positive until its last character. */
  lemma NestedReplyBalanced()
    ensures Depth(NestedReply) == 0
    ensures forall k | 0 < k < |NestedReply| :: OpenAt(NestedReply, k)
  {
    var s := NestedReply;
    assert |s| == 15 && s[0] == '[' && s[4] == '[' && s[8] == ']' && s[14] == ']';
    assert s[..0] == [];
    DepthStep(s, 0);
    DepthLevel(s, 1, 4);
    DepthStep(s, 4);
    DepthLevel(s, 5, 8);
    DepthStep(s, 8);
    DepthLevel(s, 9, 14);
    DepthStep(s, 14);
    assert s[..|s|] == s;
    forall k | 0 < k < |s|
      ensures OpenAt(s, k)
    {
      if k <= 4 {
        DepthLevel(s, 1, k);
      } else if k <= 8 {
        DepthLevel(s, 5, k);
      } else {
        DepthLevel(s, 9, k);
      }
    }
  }

  /** The first `]` after the opening `[` of `NestedReply` closes the inner list. */
  lemma NestedReplyFirstClose()
    ensures Find(NestedReply, '[') == 0
    ensures Find(NestedReply[1..], ']') == 7
  {
    var t := NestedReply[1..];
    assert t[7] == ']';
    assert ']' !in t[..7];
  }

  /** The truncation on a concrete triple with a nested reasoning list: the regex
      candidate stops at the inner `]`... */
  lemma NestedExampleRegex()
    ensures RegexSlice(NestedReply) == Some("[2, [\"a\"]")
  {
    NestedReplyFirstClose();
    assert NestedReply[0..9] == "[2, [\"a\"]";
  }

  /** ... while the balanced slice is the whole triple. */
  lemma NestedExampleBalanced()
    ensures SlicePayload(NestedReply) == NestedReply
  {
    var s := NestedReply;
    NestedReplyFirstClose();
    NestedReplyBalanced();
    assert s[|s| - 1] == ']';
    assert FirstBalanced(s, s);
    assert s[0..] == s;
    FirstBalancedUnique(s, s, SlicePayload(s));
  }
}

=== FILE: router.dfy ===
/** `route_topic` and the edge map of `build_graph`: the topic text, lower-cased,
    picks the solver node. */
module Router {
  import opened PyText
  import opened PyValue

  const SequenceSolver: string := "sequence_solver"
  const ClassicRiddle: string := "classic_riddle"
  const OtherTask: string := "other_task"

  /** The conditional edges from `START`: every label names the node of that name. */
  const EdgeMap: map<string, string> := map[
    SequenceSolver := SequenceSolver,
    ClassicRiddle := ClassicRiddle,
    OtherTask := OtherTask]

  /** `str(state.get("topic") or "").lower()`; a missing key is `VNone`. */
  function TopicText(py: Python, topic: Value): (text: string)
    ensures !Truthy(topic) ==> text == []
    ensures topic.VStr? ==> text == Lower(topic.s)
    ensures forall i | 0 <= i < |text| :: !('A' <= text[i] <= 'Z')
  {
    Lower(Str(py, if Truthy(topic) then topic else VStr("")))
  }

  /** `route_topic(state)`: "sequence" wins over "riddle" and "puzzle"; anything else
      goes to `other_task`. The label is always a key of the edge map, mapped to the
      node of the same name. */
  function RouteTopic(py: Python, topic: Value): (node: string)
    ensures node in EdgeMap && EdgeMap[node] == node
    ensures node == SequenceSolver <==> Contains(TopicText(py, topic), "sequence")
    ensures node == ClassicRiddle <==>
      !Contains(TopicText(py, topic), "sequence")
      && (Contains(TopicText(py, topic), "riddle") || Contains(TopicText(py, topic), "puzzle"))
    ensures node == OtherTask <==>
      !Contains(TopicText(py, topic), "sequence")
      && !Contains(TopicText(py, topic), "riddle") && !Contains(TopicText(py, topic), "puzzle")
  {
    var topicText := TopicText(py, topic);
    if Contains(topicText, "sequence") then SequenceSolver
    else if Contains(topicText, "riddle") || Contains(topicText, "puzzle") then ClassicRiddle
    else OtherTask
  }

  /** Routing ignores the case of ASCII letters in a string topic. */
  lemma RouteIgnoresCase(py: Python, t: string, u: string)
    requires Lower(t) == Lower(u)
    ensures RouteTopic(py, VStr(t)) == RouteTopic(py, VStr(u))
  {
    assert TopicText(py, VStr(t)) == Lower(t);
    assert TopicText(py, VStr(u)) == Lower(u);
  }

  /** `route(t) == route(t.lower())`. */
  lemma RouteOfLower(py: Python, t: string)
    ensures RouteTopic(py, VStr(t)) == RouteTopic(py, VStr(Lower(t)))
  {
    LowerIdempotent(t);
    RouteIgnoresCase(py, t, Lower(t));
  }

  /** A keyword found anywhere in a string topic, in any case, picks the node; the
      word need not stand alone ("Number Sequences"). */
  lemma KeywordRoutes(py: Python, t: string, i: nat, w: string)
    requires w != [] && i + |w| <= |t| && Lower(t[i..i + |w|]) == w
    ensures w == "sequence" ==> RouteTopic(py, VStr(t)) == SequenceSolver
    ensures (w == "riddle" || w == "puzzle") && !Contains(Lower(t), "sequence") ==>
      RouteTopic(py, VStr(t)) == ClassicRiddle
  {
    assert t != [];
    assert TopicText(py, VStr(t)) == Lower(t);
    assert Lower(t)[i..i + |w|] == Lower(t[i..i + |w|]);
    assert w <= Lower(t)[i..];
  }

  /** An absent, `None` or empty topic goes to `other_task`. */
  lemma EmptyTopicIsOther(py: Python, topic: Value)
    requires topic == VNone || topic == VStr("")
    ensures RouteTopic(py, topic) == OtherTask
  {
    assert TopicText(py, topic) == [];
  }

  /** A topic naming both a sequence and a riddle is routed as a sequence. */
  lemma SequenceFirst(py: Python)
    ensures RouteTopic(py, VStr("Riddle Sequence")) == SequenceSolver
  {
    KeywordRoutes(py, "Riddle Sequence", 7, "sequence");
  }
}

=== FILE: seqs.dfy ===
/** Generic facts about sequences, stated once so that proofs about strings and
    lists of strings do not have to rediscover them. */
module Seqs {
  lemma HeadTail<T>(s: seq<T>)
    requires s != []
    ensures s == [s[0]] + s[1..]
  {
  }

  lemma AppendAssociative<T>(a: seq<T>, b: seq<T>, c: seq<T>)
    ensures a + (b + c) == (a + b) + c
  {
  }

  lemma SplitThree<T>(s: seq<T>, i: nat, j: nat)
    requires i <= j <= |s|
    ensures s == s[..i] + (s[i..j] + s[j..])
  {
  }

  lemma ConsSlice<T>(s: seq<T>, p: nat, q: nat)
    requires p + q + 1 <= |s|
    ensures s[p..p + q + 1] == [s[p]] + s[p + 1..][..q]
  {
  }

  lemma SlicePrefix<T>(s: seq<T>, p: nat, n: nat)
    requires p + n <= |s|
    ensures s[p..p + n] <= s[p..]
  {
    assert s[p..][..n] == s[p..p + n];
  }
}

=== FILE: slicing.dfy ===
/** Locating the payload candidate in a reply: the bracket-depth scan of
    `_slice_payload`. */
module Slicing {
  import opened Wrappers
  import opened PyText

  function Delta(c: char): int {
    if c == '[' then 1 else if c == ']' then -1 else 0
  }

  /** The number of `[` minus the number of `]` in `t`. */
  function Depth(t: string): int {
    if t == [] then 0 else Depth(t[..|t| - 1]) + Delta(t[|t| - 1])
  }

  lemma DepthStep(t: string, k: nat)
    requires k < |t|
    ensures Depth(t[..k + 1]) == Depth(t[..k]) + Delta(t[k])
  {
    assert t[..k + 1][..k] == t[..k];
  }

  /** The depth of the first `k` characters of `t` is positive: the block opened by
      `t[0]` is still open there. */
  predicate OpenAt(t: string, k: nat)
    requires k <= |t|
  {
    Depth(t[..k]) > 0
  }

  /** `r` is what the depth scan cuts from `t`, a text starting at its first `[`:
      the shortest non-empty prefix at which the depth is back to 0 (so it ends in `]`),
      or, when the depth never returns to 0, the whole of `t`. */
  predicate FirstBalanced(t: string, r: string) {
    && r <= t
    && |r| > 0
    && (forall k | 0 < k < |r| :: OpenAt(r, k))
    && ((Depth(r) == 0 && r[|r| - 1] == ']') || (r == t && Depth(t) > 0))
  }

  /** A non-empty proper prefix of a cut still has positive depth. */
  lemma InsideCut(t: string, a: string, b: string)
    requires FirstBalanced(t, b)
    requires a <= t && 0 < |a| < |b|
    ensures Depth(a) > 0
  {
    assert b[..|a|] == a;
    assert OpenAt(b, |a|);
  }

  /** There is only one such cut. */
  lemma FirstBalancedUnique(t: string, r1: string, r2: string)
    requires FirstBalanced(t, r1) && FirstBalanced(t, r2)
    ensures r1 == r2
  {
    if |r1| < |r2| {
      InsideCut(t, r1, r2);
    } else if |r2| < |r1| {
      InsideCut(t, r2, r1);
    }
  }

  /** A prefix of `t` is open wherever `t` is. */
  lemma OpenPrefix(t: string, r: string)
    requires r <= t
    requires forall k | 0 < k < |r| :: OpenAt(t, k)
    ensures forall k | 0 < k < |r| :: OpenAt(r, k)
  {
    forall k | 0 < k < |r|
      ensures OpenAt(r, k)
    {
      assert OpenAt(t, k);
      assert r[..k] == t[..k];
    }
  }

  /** The scan invariant at index `idx` of `t`: `depth` is the depth of `t[..idx]`,
      and the block has stayed open at every earlier index. */
  predicate ScanState(t: string, idx: nat, depth: int) {
    && |t| > 0 && t[0] == '['
    && idx <= |t|
    && depth == Depth(t[..idx])
    && (forall k | 0 < k <= idx :: OpenAt(t, k))
  }

  /** The loop of `_slice_payload` from index `idx` of `t` on, `t` being the snippet
      from its first `[`. */
  function ScanFrom(t: string, idx: nat, depth: int): (r: string)
    requires ScanState(t, idx, depth)
    ensures FirstBalanced(t, r)
    decreases |t| - idx
  {
    if idx == |t| then
      OpenPrefix(t, t);
      assert OpenAt(t, |t|) && t[..|t|] == t;
      t
    else
      ScanStep(t, idx, depth);
      if t[idx] == ']' && depth - 1 == 0 then
        var r := t[..idx + 1];
        OpenPrefix(t, r);
        assert r[..|r|] == r;
        r
      else
        ScanFrom(t, idx + 1, depth + Delta(t[idx]))
  }

  /** One iteration of the scan: unless it closes the block at `idx`, the invariant
      holds again at `idx + 1` with the depth updated by `t[idx]`. */
  lemma ScanStep(t: string, idx: nat, depth: int)
    requires ScanState(t, idx, depth) && idx < |t|
    ensures t[idx] == ']' && depth - 1 == 0 ==> Depth(t[..idx + 1]) == 0
    ensures !(t[idx] == ']' && depth - 1 == 0) ==> ScanState(t, idx + 1, depth + Delta(t[idx]))
  {
    DepthStep(t, idx);
    if idx > 0 {
      assert OpenAt(t, idx);
    }
  }

  /** `ScanFrom` unfolded once. */
  lemma ScanUnfold(t: string, idx: nat, depth: int)
    requires ScanState(t, idx, depth)
    ensures idx == |t| ==> ScanFrom(t, idx, depth) == t
    ensures idx < |t| && t[idx] == ']' && depth - 1 == 0 ==> ScanFrom(t, idx, depth) == t[..idx + 1]
    ensures idx < |t| && !(t[idx] == ']' && depth - 1 == 0) ==>
      ScanState(t, idx + 1, depth + Delta(t[idx]))
      && ScanFrom(t, idx, depth) == ScanFrom(t, idx + 1, depth + Delta(t[idx]))
  {
    if idx < |t| {
      ScanStep(t, idx, depth);
    }
  }

  /** `_slice_payload(snippet)`: the first balanced `[...]` block, the rest of the
      snippet from its first `[` when that never balances, or the whole snippet when
      it holds no `[`. */
  function SlicePayload(snippet: string): (r: string)
    ensures '[' !in snippet ==> r == snippet
    ensures '[' in snippet ==> FirstBalanced(snippet[Find(snippet, '[')..], r)
  {
    var start := Find(snippet, '[');
    if start == -1 then snippet
    else
      var t := snippet[start..];
      assert t[..0] == [];
      ScanFrom(t, 0, 0)
  }

  /** The loop invariant of `ScanPayload` over the snippet itself: the scan from
      `idx` on, with counter `depth`, still yields the payload. */
  predicate ScanInvariant(snippet: string, start: nat, idx: nat, depth: int) {
    && start <= idx <= |snippet|
    && Find(snippet, '[') == start
    && ScanState(snippet[start..], idx - start, depth)
    && ScanFrom(snippet[start..], idx - start, depth) == SlicePayload(snippet)
  }

  lemma ScanInvariantInit(snippet: string)
    requires '[' in snippet
    ensures ScanInvariant(snippet, Find(snippet, '['), Find(snippet, '['), 0)
  {
    var t := snippet[Find(snippet, '[')..];
    assert t[..0] == [];
  }

  /** One iteration of the loop: either it closes the block and returns the payload,
      or the invariant holds at the next index. */
  lemma ScanInvariantStep(snippet: string, start: nat, idx: nat, depth: int)
    requires ScanInvariant(snippet, start, idx, depth) && idx < |snippet|
    ensures snippet[idx] == ']' && depth - 1 == 0 ==> snippet[start..idx + 1] == SlicePayload(snippet)
    ensures !(snippet[idx] == ']' && depth - 1 == 0) ==> ScanInvariant(snippet, start, idx + 1, depth + Delta(snippet[idx]))
  {
    var t := snippet[start..];
    assert snippet[idx] == t[idx - start];
    ScanUnfold(t, idx - start, depth);
    assert t[..idx - start + 1] == snippet[start..idx + 1];
  }

  lemma ScanInvariantEnd(snippet: string, start: nat, depth: int)
    requires ScanInvariant(snippet, start, |snippet|, depth)
    ensures snippet[start..] == SlicePayload(snippet)
  {
    ScanUnfold(snippet[start..], |snippet| - start, depth);
  }

  /** The loop of `_slice_payload` as written, with its depth counter. */
  method ScanPayload(snippet: string) returns (r: string)
    ensures r == SlicePayload(snippet)
  {
    var start := Find(snippet, '[');
    if start == -1 {
      return snippet;
    }
    ScanInvariantInit(snippet);
    var depth := 0;
    var idx := start;
    while idx < |snippet|
      invariant ScanInvariant(snippet, start, idx, depth)
      decreases |snippet| - idx
    {
      var c := snippet[idx];
      ScanInvariantStep(snippet, start, idx, depth);
      if c == '[' {
        depth := depth + 1;
      } else if c == ']' {
        depth := depth - 1;
        if depth == 0 {
          return snippet[start..idx + 1];
        }
      }
      idx := idx + 1;
    }
    ScanInvariantEnd(snippet, start, depth);
    return snippet[start..];
  }
}

=== FILE: state.dfy ===
/** `AgentState` and `make_agent_state`: the per-row record the pipeline threads
    through the graph. */
module State {
  import opened PyText
  import opened PyValue

  /** The fields of the `AgentState` typed dict. `query` and `topic` are whatever the
      row held (a pandas cell need not be a string). */
  datatype AgentState = AgentState(
    query: Value,
    topic: Value,
    options: seq<string>,
    reasoning: seq<string>,
    answerOption: int,
    confidence: real)

  /** A CSV row: column name to cell. */
  type Row = map<string, Value>

  /** The option columns, in the order `range(1, 5)` visits them. */
  const OptionColumns: seq<string> := ["answer_option_1", "answer_option_2", "answer_option_3", "answer_option_4"]

  /** `row.get(key, default)`. */
  function RowGet(row: Row, key: string, default: Value): Value {
    if key in row then row[key] else default
  }

  /** The option cells of a row, in column order; `None` for a missing column. */
  function OptionCells(row: Row): (cells: seq<Value>)
    ensures |cells| == |OptionColumns|
    ensures forall i | 0 <= i < |cells| && OptionColumns[i] in row :: cells[i] == row[OptionColumns[i]]
    ensures forall i | 0 <= i < |cells| && OptionColumns[i] !in row :: cells[i] == VNone
  {
    seq(|OptionColumns|, i requires 0 <= i < |OptionColumns| => RowGet(row, OptionColumns[i], VNone))
  }

  /** `[value.strip() for value in cells if isinstance(value, str) and value.strip()]`. */
  function KeptOptions(cells: seq<Value>): (opts: seq<string>)
    ensures |opts| <= |cells|
    ensures forall i | 0 <= i < |opts| :: opts[i] != [] && Trimmed(opts[i], IsSpace)
  {
    if cells == [] then []
    else
      var kept := if cells[0].VStr? && Strip(cells[0].s) != [] then [Strip(cells[0].s)] else [];
      kept + KeptOptions(cells[1..])
  }

  /** `make_agent_state(row)`. */
  function MakeAgentState(row: Row): (st: AgentState)
    ensures |st.options| <= 4
    ensures forall i | 0 <= i < |st.options| :: st.options[i] != [] && Strip(st.options[i]) == st.options[i]
    ensures st.reasoning == [] && st.answerOption == 5 && st.confidence == 0.0
    ensures "problem_statement" in row ==> st.query == row["problem_statement"]
    ensures "problem_statement" !in row ==> st.query == VStr("")
    ensures "topic" in row ==> st.topic == row["topic"]
    ensures "topic" !in row ==> st.topic == VStr("")
  {
    var options := KeptOptions(OptionCells(row));
    forall i | 0 <= i < |options| ensures Strip(options[i]) == options[i] {
      StripTrimmed(options[i], IsSpace);
    }
    AgentState(
      query := RowGet(row, "problem_statement", VStr("")),
      topic := RowGet(row, "topic", VStr("")),
      options := options,
      reasoning := [],
      answerOption := 5,
      confidence := 0.0)
  }

  /** The option filter keeps column order: it distributes over concatenation. */
  lemma {:induction false} KeptOptionsAppend(a: seq<Value>, b: seq<Value>)
    ensures KeptOptions(a + b) == KeptOptions(a) + KeptOptions(b)
    decreases |a|
  {
    if a == [] {
      assert a + b == b;
    } else {
      assert (a + b)[0] == a[0];
      assert (a + b)[1..] == a[1..] + b;
      KeptOptionsAppend(a[1..], b);
    }
  }

  /** Non-string cells (a pandas NaN, a missing column) and blank strings are dropped;
      a string cell with visible text is kept, stripped. */
  lemma KeptOptionCell(v: Value)
    ensures !v.VStr? ==> KeptOptions([v]) == []
    ensures v.VStr? && Strip(v.s) == [] ==> KeptOptions([v]) == []
    ensures v.VStr? && Strip(v.s) != [] ==> KeptOptions([v]) == [Strip(v.s)]
  {
    assert [v][1..] == [];
  }

  /** The options are the kept cells of columns 1 to 4, in that order. */
  lemma OptionsInColumnOrder(row: Row)
    ensures MakeAgentState(row).options
      == KeptOptions([RowGet(row, "answer_option_1", VNone)])
       + KeptOptions([RowGet(row, "answer_option_2", VNone)])
       + KeptOptions([RowGet(row, "answer_option_3", VNone)])
       + KeptOptions([RowGet(row, "answer_option_4", VNone)])
  {
    var cells := OptionCells(row);
    assert cells == [cells[0]] + [cells[1]] + [cells[2]] + [cells[3]];
    KeptOptionsAppend([cells[0]] + [cells[1]] + [cells[2]], [cells[3]]);
    KeptOptionsAppend([cells[0]] + [cells[1]], [cells[2]]);
    KeptOptionsAppend([cells[0]], [cells[1]]);
  }
}

=== FILE: triplet.dfy ===
/** The answer triple both normalisers produce, its fallback, and the field
    normalisation applied once a triple has been found. */
module Triplet {
  import opened PyText
  import opened PyValue
  import opened Coerce
  import opened Reasoning

  /** A decoded `(option, reasoning, confidence)` triple, each field still untyped. */
  datatype Triple = Triple(option: Value, reasoning: Value, confidence: Value)

  /** The `(option, reasoning, confidence)` tuple returned to the caller. */
  datatype Answer = Answer(option: int, reasoning: seq<string>, confidence: real)

  const Unparsed: string := "Unable to parse model response."
  /** How much of the reply the fallback keeps. */
  const FallbackLimit: nat := 200
  const LowOption: int := 1
  const HighOption: int := 5
  const DefaultOption: int := 5
  const DefaultConfidence: real := 0.0

  /** The bounded shape every answer has: option in [1,5], a non-empty list of
      non-empty reasoning steps, confidence in [0,1]. */
  predicate WellFormed(a: Answer) {
    && LowOption <= a.option <= HighOption
    && |a.reasoning| >= 1
    && (forall i | 0 <= i < |a.reasoning| :: a.reasoning[i] != [])
    && 0.0 <= a.confidence <= 1.0
  }

  /** `return 5, [snippet[:200] or "Unable to parse model response."], 0.0`. */
  function Fallback(snippet: string): (a: Answer)
    ensures WellFormed(a)
    ensures a.option == DefaultOption && a.confidence == DefaultConfidence && |a.reasoning| == 1
    ensures |a.reasoning[0]| <= FallbackLimit
    ensures snippet == [] ==> a.reasoning[0] == Unparsed
    ensures snippet != [] ==> a.reasoning[0] <= snippet
    ensures snippet != [] ==> |a.reasoning[0]| == if |snippet| < FallbackLimit then |snippet| else FallbackLimit
  {
    var head := if |snippet| < FallbackLimit then snippet else snippet[..FallbackLimit];
    Answer(DefaultOption, [if head == [] then Unparsed else head], DefaultConfidence)
  }

  /** The clamping and cleaning of a found triple (`_extract` after `_parse_triplet`). */
  function Normalise(py: Python, t: Triple): (a: Answer)
    ensures WellFormed(a)
  {
    Answer(
      ClampInt(py, t.option, LowOption, HighOption, DefaultOption),
      CleanReasoning(py, t.reasoning),
      ClampFloat(py, t.confidence, 0.0, 1.0, DefaultConfidence))
  }

  /** The strings `strs`, as a list value. */
  function StrList(strs: seq<string>): (v: Value)
    ensures v.VList? && |v.items| == |strs|
  {
    VList(StrValues(strs))
  }

  /** The number fields alone: an integer option and a float confidence are clipped. */
  lemma NormaliseNumbers(py: Python, o: int, r: Value, c: real)
    ensures Normalise(py, Triple(VInt(o), r, VFloat(c))).option == Clip(1, 5, o)
    ensures Normalise(py, Triple(VInt(o), r, VFloat(c))).confidence == ClipReal(0.0, 1.0, c)
  {
    var a := Normalise(py, Triple(VInt(o), r, VFloat(c)));
    assert a.option == ClampInt(py, VInt(o), LowOption, HighOption, DefaultOption);
    ClampIntOfInt(py, o, LowOption, HighOption, DefaultOption);
    assert a.confidence == ClampFloat(py, VFloat(c), 0.0, 1.0, DefaultConfidence);
  }

  /** The reasoning field alone: a list of clean strings is kept as it is. */
  lemma NormaliseCleanSteps(py: Python, o: Value, strs: seq<string>, c: Value)
    requires forall i | 0 <= i < |strs| :: strs[i] != [] && Trimmed(strs[i], IsSpace)
    ensures strs != [] ==> Normalise(py, Triple(o, StrList(strs), c)).reasoning == strs
    ensures strs == [] ==> Normalise(py, Triple(o, StrList(strs), c)).reasoning == [NotProvided]
  {
    assert Normalise(py, Triple(o, StrList(strs), c)).reasoning == CleanReasoning(py, VList(StrValues(strs)));
    CleanStringsReasoning(py, strs);
  }

  /** A well-formed triple `[o, [s1, ...], c]` with clean steps normalises to
      `(clip(o, 1, 5), [s1, ...], clip(c, 0, 1))`. */
  lemma NormaliseWellFormedTriple(py: Python, o: int, strs: seq<string>, c: real)
    requires forall i | 0 <= i < |strs| :: strs[i] != [] && Trimmed(strs[i], IsSpace)
    ensures Normalise(py, Triple(VInt(o), StrList(strs), VFloat(c))).option == Clip(1, 5, o)
    ensures strs != [] ==> Normalise(py, Triple(VInt(o), StrList(strs), VFloat(c))).reasoning == strs
    ensures strs == [] ==> Normalise(py, Triple(VInt(o), StrList(strs), VFloat(c))).reasoning == [NotProvided]
    ensures Normalise(py, Triple(VInt(o), StrList(strs), VFloat(c))).confidence == ClipReal(0.0, 1.0, c)
  {
    NormaliseNumbers(py, o, StrList(strs), c);
    NormaliseCleanSteps(py, VInt(o), strs, VFloat(c));
  }
}

=== FILE: wrappers.dfy ===
/** Failure-carrying result types shared by the whole model. */
module Wrappers {

  /** Python's `Optional`: a value or `None`. */
  datatype Option<+T> = None | Some(value: T)

  /** The outcome of an operation that may raise: a value, or the exception it raised. */
  datatype Result<+T, +E> = Ok(value: T) | Err(error: E)
}
